=== FILE: README.md ===
# json-refs: JSON Pointer and JSON Reference helpers, modelled in Dafny

This project models the helper layer of `json-refs`, a JavaScript library for
JSON References. A JSON Reference is an object whose `$ref` member is a string
(draft-pbryan-zyp-json-ref-03). Its target is a JSON Pointer written as a URI
fragment, such as `#/definitions/pet`, with `~` and `/` inside segments escaped
as `~0` and `~1` (RFC 6901). The model covers two parts of the repository.

- **The browser build** (`browser/json-refs-min.js`, line 2 — the library's own
  module; the lines after it are vendored lodash and superagent):
  - `pathToPointer` and `pathFromPointer`, the pointer codec;
  - `isRemotePointer` and `isJsonReference`;
  - `findRefs`, the scan that maps the pointer of every `$ref` member to its string;
  - the synchronous part of `resolveRefs`: its argument checks, the splice of
    local references into a deep clone (the inner helper `u`, with its
    per-reference metadata), the rules that turn remote references away before
    any request, and the cache of `getRemoteJson`, keyed by the URL without its
    fragment.
- **The `RefUtils` class** (`lib/utils.js`):
  - `getRefType`, `isRemote`, `isValid` and `isRefLike`;
  - `getExtraRefKeys`;
  - `findValue`, `setValue` and `findAncestors`;
  - `walk`, the depth-first traversal with a shared ancestor stack and path;
  - `makeRefFilter`;
  - `markMissing`;
  - the cache discipline of `getRemoteDocument`.

The modules are:

| file | module | contents |
|---|---|---|
| `Json.dfy` | `Json` | JavaScript values. Objects are ordered association lists. The file defines own-member access (object members, and array elements by canonical decimal index), paths, and strict-mode assignment. |
| `Pointer.dfy` | `Pointer` | The pointer codec: the as-written `Decode` and `DecodeRfc`, which follows RFC 6901. Also `isRemotePointer` and `isJsonReference`. |
| `RefScan.dfy` | `RefScan` | The pre-order traversal and `findRefs`. |
| `Resolution.dfy` | `Resolution` | `resolveRefs` up to the first remote request: the `Resolver` class over the clone and the metadata, plus the `RemoteJsonCache` class. |
| `RefUtils.dfy` | `RefUtils` | The `RefUtils` helpers: the `RefRecord` class for `markMissing`, the `Walker` class for `walk`, and the `RemoteDocumentCache` class. |

Where the code works by mutation, it is modelled with classes and methods:
- `findRefs`' reduction;
- the splice loop of `resolveRefs`;
- both caches;
- `findValue` and `findAncestors` (loops);
- `walk`, with its pushes and pops around the recursive call;
- `markMissing`.

Each method is proved against a specification function, and the properties are
proved about those functions.

Several names that `lib/utils.js` uses are not defined in that file. Read in
strict mode, as written, the code throws where it reaches them. The main members
model their evident intent, and for each name an `AsWritten` member models the
code as written (see the findings):
- `this.decodeURI` (line 156) is not a method of the class, so `findValue` throws
  a TypeError on any non-empty path (`RefUtils.FindValueAsWritten`). Intended: the
  identity on path segments, as is the global `decodeURI` of line 312.
- `pathToPtr` (line 161) is bound nowhere. Intended: the encoding of the browser
  build, `Pointer.EncodePath`.
- The free `findValue` (line 312) is unbound, so `setValue` always throws a
  ReferenceError (`RefUtils.SetValueAsWritten`). Intended: the class's own method.
- The free `walk` (line 320) is unbound, so `walk` throws a ReferenceError at the
  first child (`RefUtils.WalkAsWritten`). Intended: the class's own method.
- `remoteCache` (line 195) is undeclared, so `getRemoteDocument` always throws a
  ReferenceError (`RefUtils.GetRemoteDocumentAsWritten`). Intended: a map owned
  by the cache object.
- `this.refFilter` (line 295) is not defined by the class, so the filter throws a
  TypeError on every admissible reference (`RefUtils.RefFilterAsWritten`).
  Intended: the local `refFilter`.

The browser build and `lib/utils.js` differ in places, and the model follows each
file's own code:
- **Unescape order.** Section 4 of RFC 6901 turns `~1` into `/` before it turns
  `~0` into `~`. The browser build's `pathFromPointer` does the reverse.
  `Pointer.Decode` is that code, and `Pointer.DecodeRfc` follows the RFC; see the
  findings. The splice of `resolveRefs` decodes pointers the way the code does.
  Its metadata, however, is the corrected entry: at the root, the helper `u` as
  written drops the value it should record (`Resolution.SpliceMetaAsWritten`, see
  the findings).
- **Cache key.** The browser build's `getRemoteJson` keys its cache by the URL
  without its fragment. `getRemoteDocument` in `lib/utils.js` keys by the whole URL.
- **Failed requests.** `getRemoteJson` stores `undefined` after a failed request,
  so the next call requests the URL again. `getRemoteDocument` stores the failure
  and replays it.
- **Missing targets.** In the browser build, the splice of a reference whose
  target is missing records a metadata entry without a value. It writes
  `undefined` where the reference was.

## Model

| member | source | states |
|---|---|---|
| Json.Lookup | lib/utils.js:158-159 | An own member is found exactly when its key is among the object's keys, and what is found is that member's value. |
| Json.Put | browser/json-refs-min.js:2 | After `acc[key] = v` (the `findRefs` accumulator), `key` reads `v` and every other key reads what it read before. |
| Json.PutKeys | browser/json-refs-min.js:2 | Assigning to an existing key keeps the key order; a new key is appended last. |
| Json.PutKeepsDistinct | browser/json-refs-min.js:2 | Assignment never gives an object two members with one key. |
| Json.ArrayIndexOfDecimal | lib/utils.js:335-337 | The key `index.toString()` that `walk` passes for an array element addresses that element again. |
| Json.ArrayIndexInjective | lib/utils.js:335-337 | Two different property names never address the same array element. |
| Json.WriteMember | lib/utils.js:312 | `v[key] = x` in strict mode succeeds exactly on objects, and on arrays at a canonical index no greater than the length. Afterwards `key` reads `x` and every other key reads as before. On `undefined`, `null` and the other primitives it throws a TypeError. |
| Json.ReplaceAtFrame | lib/utils.js:312 | Replacing the value at one location leaves every location disjoint from it unchanged. |
| Pointer.PathToPointer | browser/json-refs-min.js:2 | The errors are "path is required" for undefined and "path must be an array" for other non-arrays. An array holding a non-string throws a TypeError. The call succeeds exactly on arrays of strings, and the pointer is the encoding of those strings. |
| Pointer.IsRemotePointer | browser/json-refs-min.js:2 | The errors are "ptr is required" and "ptr must be a string". A string is remote exactly when it is empty or does not start with `#`. |
| Pointer.PathFromPointer | browser/json-refs-min.js:2 | It has the same argument errors. A remote pointer comes back unchanged, as a string. `#` gives the empty path. Every other local pointer gives a list of segments. Every string gives exactly what `Decode`, the unescaping as written, gives. |
| Pointer.IsJsonReference | browser/json-refs-min.js:2 | A value is a JSON Reference only when it is an object with a `$ref` member that holds a string. |
| Pointer.EncodePathIsLocal | browser/json-refs-min.js:2 | Every pointer `pathToPointer` builds is local, and it is `#` exactly for the empty path. |
| Pointer.TokensOfEncodePath | browser/json-refs-min.js:2 | Splitting a built pointer after its `#` on `/` and dropping the leading empty piece gives back the escaped segments. |
| Pointer.SplitJoin | browser/json-refs-min.js:2 | Splitting on `/` the join of tokens without `/` gives the tokens back. |
| Pointer.UnescapeOfEscape | browser/json-refs-min.js:2 | With the unescaping as written, escaping then unescaping a segment turns each `~1` of the original into `/`. |
| Pointer.SegmentRoundTrip | browser/json-refs-min.js:2 | As written, a segment survives escaping and unescaping exactly when it does not contain `~1`. |
| Pointer.DecodeEncodePathSegments | browser/json-refs-min.js:2 | As written, decoding a built pointer gives one segment per segment of the path. Each is the original with every `~1` turned into `/`. |
| Pointer.PathFromPointerOfPathToPointer | browser/json-refs-min.js:2 | `pathFromPointer(pathToPointer(path))` gives `path` back exactly when no segment contains `~1`. |
| Pointer.DecodeEncodePath | browser/json-refs-min.js:2 | As written, `pathFromPointer(pathToPointer(p))` is `p` exactly when no segment of `p` contains `~1`. |
| Pointer.DecodeEncodeTildeOneCounterexample | browser/json-refs-min.js:2 | `["a~1b"]` is encoded as `#/a~01b` and decoded as written to `["a/b"]`. |
| Pointer.SegmentRoundTripRfc | browser/json-refs-min.js:2 | With the unescaping order of RFC 6901, every segment survives escaping and unescaping. |
| Pointer.DecodeRfcEncodePath | browser/json-refs-min.js:2 | With the RFC 6901 order, every path survives the round trip through the codec. |
| Pointer.EncodePathInjective | browser/json-refs-min.js:2 | Different paths have different pointers, so a pointer names one location. |
| Pointer.EncodePathExample | test/test-json-refs.js:201 | `['paths', '/pets', '~{name}']` is encoded as `#/paths/~1pets/~0{name}`. |
| RefScan.Collect | browser/json-refs-min.js:2 | The reduction's accumulator never holds two entries under one pointer. |
| RefScan.RefsOf | browser/json-refs-min.js:2 | The pointers `findRefs` returns are all different. |
| RefScan.FindRefs | browser/json-refs-min.js:2 | The errors are "json is required" and "json must be an object". On a plain object the result is the reduction of the pre-order traversal, built by a loop over the visits. |
| RefScan.VisitsFit | browser/json-refs-min.js:2 | Each visited node is the value at the visit's path, and its parent is the value one segment up. |
| RefScan.VisitAt | browser/json-refs-min.js:2 | Every location of the document is visited, with its path and its parent. |
| RefScan.FindRefsSound | browser/json-refs-min.js:2 | Every entry of `findRefs` has two parts. Its key is the pointer to the `$ref` member of a JSON Reference in the document. Its value is that member's string. |
| RefScan.FindRefsComplete | browser/json-refs-min.js:2 | Every JSON Reference in the document has its entry, under the pointer to its `$ref` member. |
| RefScan.FindRefsEmpty | browser/json-refs-min.js:2 | The result is empty exactly for documents that hold no JSON Reference. |
| Resolution.ReadArguments | browser/json-refs-min.js:2 | `resolveRefs(json, done)` is read as `resolveRefs(json, {}, done)`; with three arguments they are taken in order. |
| Resolution.ArgumentError | browser/json-refs-min.js:2 | No error is raised exactly when three things hold: `json` and `options` are plain objects, `done` is a function, and `prepareRequest` and `processContent` are functions when given. Undefined `json` raises "json is required". With both objects given, an undefined `done` raises "done is required". |
| Resolution.BeforeFirst | browser/json-refs-min.js:2 | `s.split(c)[0]` is the longest prefix of `s` without `c`. It is followed by `c` whenever `s` contains `c`. |
| Resolution.TargetPointer | browser/json-refs-min.js:2 | The target pointer starts with `#`. The reference is its text before the first `#` followed by the target. A reference without `#` targets `#`. |
| Resolution.ParentPathOfRefPointer | browser/json-refs-min.js:2 | The pointer to the `$ref` member at path `p` is local. Decoded as `pathFromPointer` does, without its last segment, it has one segment per segment of `p`, each with `~1` read as `/`. So it is `p` when no segment holds `~1`. |
| Resolution.OwnProperty | browser/json-refs-min.js:2 | The traversal library reads every own member of an object or an array. It also reads an array's `length`, and the `length` and characters of a non-empty string. It reads nothing on `undefined`, `null`, booleans, numbers and the empty string. |
| Resolution.TraverseGet | browser/json-refs-min.js:2 | The traversal's `get` finds, with the same value, every location the value model's path lookup finds. |
| Resolution.TraverseSet | browser/json-refs-min.js:2 | After the traversal's `set`, the path reads the assigned value. A one-segment `set` on an object never fails. |
| Resolution.TraverseSetFrame | browser/json-refs-min.js:2 | The traversal's `set` changes no location disjoint from its path. |
| Resolution.TargetValue | browser/json-refs-min.js:2 | The traversal's `get` reads the value at the decoded target, or `undefined` where its `has` is false. Where the path names a location, that location's value is read. |
| Resolution.SpliceDoc | browser/json-refs-min.js:2 | A reference at the root makes the clone the source. Any other reference, when the write succeeds, is replaced at its parent path by the target's value. A write one level into an object always succeeds. |
| Resolution.SpliceMeta | browser/json-refs-min.js:2 | The entry records `ref`. It holds a value exactly when the traversal's `has` finds the target, or, at the root, when the source is defined. |
| Resolution.SpliceMetaAsWritten | browser/json-refs-min.js:2 | The entry records `ref`. At the root it holds a value exactly when the source is undefined; elsewhere it is the corrected entry. |
| Resolution.SpliceWritesTarget | browser/json-refs-min.js:2 | Take a reference that is not the root, with no segment of its path holding `~1`. It is replaced in the clone by its target's value. Every location disjoint from it keeps its value. |
| Resolution.SpliceTildeOneCounterexample | browser/json-refs-min.js:2 | A reference under the member `a~1b` is spliced into a new member `a/b`. The reference object stays under `a~1b`. |
| Resolution.SpliceTildeOne | browser/json-refs-min.js:2 | For any member name `c~1tail` with no other `~`, a reference under it is spliced into the new member `c/tail`, and the reference object stays under the original name. |
| Resolution.TargetPathOfEncodePath | browser/json-refs-min.js:2 | A reference built by `pathToPointer` from segments without `~1` is its own target pointer and targets exactly those segments. |
| Resolution.SharedTarget | browser/json-refs-min.js:2 | Take a document `{ka: {$ref: #/kb}, kb: {kc: {$ref: #/kd}}, kd: 5}` with plain, distinct names. The splice loop over its two references succeeds. Afterwards `kb.kc` reads `5`, while the copy of `kb` under `ka` still holds the reference to `kd`. |
| Resolution.SharedTargetCounterexample | browser/json-refs-min.js:2 | The same for `{"a": {"$ref": "#/b"}, "b": {"c": {"$ref": "#/d"}}, "d": 5}`. The code shares the object `b` with `a`, so it reads `5` at `a.c`; the model leaves the reference there. |
| Resolution.SpliceIntoObject | browser/json-refs-min.js:2 | A reference held by a member of the top-level object is always spliced without error. |
| Resolution.SpliceMetaRecordsTarget | browser/json-refs-min.js:2 | In the corrected helper, the metadata records `ref`. A recorded value is the very value the splice wrote where the reference was. When it records no value, the value written is `undefined`. |
| Resolution.RootMetadataCounterexample | browser/json-refs-min.js:2 | Take the document `{"$ref": "#"}`. The splice makes the clone the document again. The helper as written still records no value for it. The corrected helper records the document. |
| Resolution.RemoteRejection | browser/json-refs-min.js:2 | An accepted remote reference starts with `http`. A reference starting with `.` is rejected as relative. |
| Resolution.AcceptedIffHttp | browser/json-refs-min.js:2 | A remote reference passes the checks before the request exactly when it does not start with `.` and its text before the first `:` is `http` or `https`. |
| Resolution.RelativeRejectedExample | browser/json-refs-min.js:2 | `./models.json` fails with "Relative remote references are not yet supported". |
| Resolution.SchemeRejected | browser/json-refs-min.js:2 | A reference that does not start with `.` and whose text before the first `:` is neither `http` nor `https` fails with "Unsupported remote reference scheme: " followed by that text. |
| Resolution.SchemeRejectedExample | browser/json-refs-min.js:2 | `ftp://host/doc.json` fails with "Unsupported remote reference scheme: ftp". |
| Resolution.FirstRejection | browser/json-refs-min.js:2 | A rejection of the loop is the rejection of one of the pending references. |
| Resolution.FirstRejectionNone | browser/json-refs-min.js:2 | The loop over the pending remote references fails exactly when one of them is rejected. |
| Resolution.FirstRejectionIsFirst | browser/json-refs-min.js:2 | When the loop fails, it fails with the rejection of the first rejected reference: every reference before it is accepted. |
| Resolution.RootStepMetadata | browser/json-refs-min.js:2 | On `{"$ref": "#"}`, the loop's step succeeds and records the document under `#/$ref`. The helper as written records no value there. |
| Resolution.Step | browser/json-refs-min.js:2 | A remote reference is always set aside, at the end of the pending list. A local one adds a metadata entry under its pointer: the corrected splice entry, taken from the clone as it stands. No other key is added. |
| Resolution.Pass | browser/json-refs-min.js:2 | A completed loop keeps every earlier metadata key and the earlier pending references as a prefix. |
| Resolution.PassShape | browser/json-refs-min.js:2 | A completed splice loop leaves a metadata entry for every local reference and no others. It sets aside every remote reference, in the order found. |
| Resolution.PassOfTopLevel | browser/json-refs-min.js:2 | When every reference is held by a member of the top-level object, the splice loop cannot fail and the clone stays an object. |
| Resolution.RefsOfAreEntries | browser/json-refs-min.js:2 | Every entry `findRefs` returns maps a local pointer to a string. |
| Resolution.Resolver.constructor | browser/json-refs-min.js:2 | Resolution starts from a clone of the input, with empty metadata and no pending remote references. |
| Resolution.Resolver.Splice | browser/json-refs-min.js:2 | The helper `u` replaces the clone by the spliced document and records the reference's corrected metadata under its pointer. A failing write reports its error and changes nothing. |
| Resolution.Resolver.SpliceAll | browser/json-refs-min.js:2 | The loop over the references leaves the resolver in the state the splice loop specifies. It fails exactly when that loop fails, with the same error. |
| Resolution.ResolveRefs | browser/json-refs-min.js:2 | An argument error is thrown. A document without references is handed back unchanged with empty metadata. Otherwise the call ends in one of three ways: the splice loop's error is thrown; the first remote rejection is passed to `done`; or the spliced clone, its metadata and the remote references are still to be fetched. |
| Resolution.NoRefsResolvesToInput | browser/json-refs-min.js:2 | A valid call on a document without references passes the argument checks and finds no references. So it resolves to the document itself, with empty metadata. |
| Resolution.ResolvedMetadataKeys | browser/json-refs-min.js:2 | After the splice loop over a document, the metadata keys are the pointers of exactly its local references. The pending remote references are its remote references, in order. |
| Resolution.CacheKey | browser/json-refs-min.js:2 | The cache key is a prefix of the URL that contains no `#`. |
| Resolution.CacheKeyIgnoresFragment | browser/json-refs-min.js:2 | URLs that differ only in their fragment share one cache entry. |
| Resolution.RemoteJsonCache.constructor | browser/json-refs-min.js:2 | The cache starts empty. |
| Resolution.RemoteJsonCache.ClearCache | browser/json-refs-min.js:2 | `clearCache()` empties the cache. |
| Resolution.RemoteJsonCache.GetRemoteJson | browser/json-refs-min.js:2 | A request is made exactly when the key holds no defined value. On a hit the cached document is returned and the cache is unchanged. On a miss the result is stored and returned; a failure stores `undefined` and is passed on. |
| Resolution.FetchTwice | browser/json-refs-min.js:2 | A document that loaded to a defined value is not requested again under any fragment of its URL. A first failure is requested again. |
| RefUtils.GetRefType | lib/utils.js:174-191 | `absolute` and `uri` are classified `remote` and `same-document` `local`. Every other kind is returned as it is. |
| RefUtils.GetRefTypeIdempotent | lib/utils.js:174-191 | Classifying an already classified kind changes nothing. |
| RefUtils.IsRemote | lib/utils.js:143-145 | A reference is remote exactly when its URI kind is `absolute`, `uri`, `relative` or `remote`. |
| RefUtils.IsValid | lib/utils.js:147-149 | Valid details never have the type `invalid`. |
| RefUtils.ValidDetailsAccepted | lib/utils.js:147-149 | Valid details always pass the predicate's test for invalid ones, so with no filter they are accepted. |
| RefUtils.RefRecord.MarkMissing | lib/utils.js:299-302 | The details record the error's message and the missing flag, and nothing else changes. Afterwards the details are not valid and keep their type. |
| RefUtils.IsRefLike | lib/utils.js:247-265 | The result is `true` exactly for plain objects with a string `$ref`. Without `throwWithDetails` the result is just that test. With it, a non-object throws "obj is not an Object" and an object without a string `$ref` throws "obj.$ref is not a String". |
| RefUtils.Without | lib/utils.js:169-171 | The filter keeps exactly the keys other than the one dropped, so that key is gone. |
| RefUtils.GetExtraRefKeys | lib/utils.js:168-172 | `Object.keys` throws exactly on `undefined` and `null`. The extra keys never include `$ref`. For an object they are exactly its other keys. |
| RefUtils.ExtraKeysOfReference | lib/utils.js:168-172 | A JSON Reference has one extra key fewer than it has members. |
| RefUtils.In | lib/utils.js:158 | On objects and arrays the `in` test is true exactly for their own members. Primitives throw a TypeError. Inherited names and an array's `length`, for which `in` is also true, are reported as unmodelled. |
| RefUtils.FindValueFromGet | lib/utils.js:151-166 | The segment-by-segment lookup succeeds exactly where the path names a location, with its value. Otherwise it fails with the missing-location error or a runtime error. |
| RefUtils.FindValueFromPrefix | lib/utils.js:151-166 | Once a prefix of the path is found, the lookup goes on from the value it reaches. |
| RefUtils.FindValueStops | lib/utils.js:151-166 | The intended lookup stops at the first segment that is no own member. On an object or array, unless the name is inherited, it throws the missing-location error. On a primitive it throws a TypeError. |
| RefUtils.FindValueAsWritten | lib/utils.js:151-166 | As written, a value comes back exactly for the empty path, and it is the intended one. Every other path throws a TypeError. |
| RefUtils.FindValueAsWrittenThrows | lib/utils.js:155-159 | On a one-member object, looking up that member throws a TypeError as written. The intended lookup returns the member's value. |
| RefUtils.FindValue | lib/utils.js:151-166 | `findValue(obj, [])` is `obj`. The loop returns the value at the path exactly when there is one. Suppose the first `k` segments are found and segment `k` is no own member of the value they reach. On an object or array, unless the name is inherited, the loop throws "JSON Pointer points to missing location: …". On a primitive it throws a TypeError. |
| RefUtils.SetValueAsWritten | lib/utils.js:311-313 | As written, every call throws a ReferenceError. |
| RefUtils.SetValueAsWrittenThrows | lib/utils.js:311-313 | Assigning a member of an object throws as written. The intended call succeeds, and the member then reads the assigned value. |
| RefUtils.SetValue | lib/utils.js:311-313 | A parent path that names no location makes `setValue` throw. An object parent, or an array parent with a canonical index up to its length, always succeeds. A primitive parent throws a TypeError. After a successful call with a non-empty path, the path reads the assigned value. |
| RefUtils.SetValueFrame | lib/utils.js:311-313 | `setValue` changes no location disjoint from the assigned one. |
| RefUtils.FindAncestors | lib/utils.js:124-141 | `findAncestors(obj, [])` is `[]`. Otherwise the loop collects the ancestors along every segment but the last. There are at most `path.length - 1` of them. |
| RefUtils.AncestorsAlongPath | lib/utils.js:124-141 | When every prefix of the segments exists, ancestor `i` is the value at the first `i + 1` segments. |
| RefUtils.Walker.Walk | lib/utils.js:315-347 | On return the shared `ancestors` and `path` are as on entry. The iteratee has seen exactly the calls `WalkCalls` lists: the node first, then the children in order with their keys pushed, except below a node already on the stack or one for which the iteratee returned `false`. |
| RefUtils.WalkAsWritten | lib/utils.js:315-347 | As written, the iteratee sees a prefix of the intended calls. The walk throws exactly when the node is not on the stack, the iteratee did not return `false`, and the node has a child. It then throws a ReferenceError with the node left on `ancestors` and the first child's key on `path`. Otherwise it makes all the intended calls and restores both. |
| RefUtils.WalkAsWrittenThrows | lib/utils.js:318-327 | On a one-member object whose iteratee goes on, the walk as written throws after the single call on the object. The intended walk next calls the iteratee on the member, under its key. |
| RefUtils.WalkVisitsEveryNode | lib/utils.js:315-347 | Suppose the iteratee never returns `false` and the walk starts from an empty stack or one of higher nodes. Then it is called on every node of the document, in the pre-order and with the paths of the `findRefs` traversal. |
| RefUtils.WalkStopsOnFalse | lib/utils.js:325-333 | An iteratee that returns `false` on a node sees nothing below it. |
| RefUtils.RefFilter | lib/utils.js:276-297 | With the call of line 295 corrected, a reference is accepted only when it is not `invalid` or `includeInvalid` is `true`. The predicate fails exactly on an admissible reference whose filter value is not a string, a list or undefined. That failure is a TypeError, except for a function given as a value, which is reported as unmodelled. |
| RefUtils.RefFilterAsWritten | lib/utils.js:294-296 | The returned predicate as written yields a result only for invalid details without `includeInvalid === true`, and then rejects them. It throws for every other reference. |
| RefUtils.UndefinedFilterAsWrittenThrows | lib/utils.js:288-296 | With no filter, a valid local reference makes the predicate as written throw. The intended predicate accepts it. |
| RefUtils.FilterRejectsInvalid | lib/utils.js:295 | The intended predicate rejects invalid details unless `includeInvalid` is exactly `true`. |
| RefUtils.StringFilterIsSingletonList | lib/utils.js:280-285 | A string filter behaves as the list that holds just that string. |
| RefUtils.ListFilterAccepts | lib/utils.js:280-285 | A list accepts admissible details exactly when it names their type or their classified type. |
| RefUtils.UndefinedFilterAcceptsAll | lib/utils.js:288-291 | Without a filter, every admissible reference passes, and only those. |
| RefUtils.Replay | lib/utils.js:229-236 | A cached value is returned. Only a cached `Error` is rethrown, unchanged. |
| RefUtils.RemoteDocumentCache.GetRemoteDocument | lib/utils.js:193-245 | The loader runs exactly when the URL has no entry. Its value or its error is then stored under the URL and passed on. Otherwise the entry is replayed and the cache is unchanged. Afterwards the URL always has an entry. |
| RefUtils.GetRemoteDocumentAsWritten | lib/utils.js:193-195 | As written, every call throws a ReferenceError. |
| RefUtils.FirstRequestAsWrittenThrows | lib/utils.js:193-227 | A first request throws as written. The intended call runs the loader and passes on what it settles with. |
| RefUtils.GetTwice | lib/utils.js:193-245 | A second call for the same URL never runs the loader. It gives back what the first call gave, except after a rejection whose reason is not an `Error`, which then reads as `undefined`. |

## Left out

- Vendored lodash and superagent (browser/json-refs-min.js:3-273) are third-party library code and network I/O. The deep clone is the identity, because values have no identity; what that loses once the splice shares objects is on the `Resolution.SpliceDoc` line. The traversal library `traverse` is modelled only through `get`, `set` and the pre-order walk with paths and parents.
- The asynchronous part of `resolveRefs` is left out because it is callback orchestration around I/O. This covers the `done` callback, the pending map, the requests, and the recursive resolution of fetched documents. `Resolution.ResolveRefs` ends once the splice loop is over; its outcome is decided by the rejection rules over all pending remote references (`Resolution.FirstRejection`). In the code, the remote loop calls `getRemoteJson` for each accepted reference before it reaches the first rejected one, so requests are already under way when that rejection is passed to `done`; the model does not record them. On a cache hit `getRemoteJson` calls back at once, and a nested `resolveRefs` that fails then ends the loop with its own error before a later rejection is seen; these synchronous cache hits are not modelled either.
- The pass of `resolveRefs` that cleans up circular structures is left out. It depends on the `circular` flag of the traversal library over live object graphs, which values cannot express.
- `prepareRequest` and `processContent` are checked as arguments only. The request they shape is abstracted as the `load` parameter of `Resolution.RemoteJsonCache.GetRemoteJson`.
- `combineURIs`, `combineQueryParams`, `parseURI`, `makeAbsolute` and `log` (lib/utils.js:61-122, 267-274, 304-307) are left out. They are wrappers over URI, query-string, path and console libraries.
- Resolution.SpliceDoc: the splice writes the target's value. The code writes the target object itself, so the target and every place it is spliced to are one shared object, and so is the metadata entry's value. A later splice under any of them shows in all of them. `Resolution.SharedTargetCounterexample` exhibits the difference: in `{"a": {"$ref": "#/b"}, "b": {"c": {"$ref": "#/d"}}, "d": 5}` the code resolves `a.c` to `5` through the shared object, while the model leaves the reference under `a`. A target that is an ancestor of its reference becomes a cycle in the code; the model writes a finite copy of the target as it was.
- Resolution.SpliceWritesTarget: states the value written, not the sharing the code creates; see the `Resolution.SpliceDoc` line and `Resolution.SharedTargetCounterexample`.
- Resolution.SpliceWritesTarget: proved only for paths none of whose segments holds `~1`. The splice decodes pointers as the code does, so such a segment names another member. The target is then written under that name and the reference stays in place (`Resolution.SpliceTildeOneCounterexample`).
- Resolution.Resolver.Splice: stores a copy of the target, not the shared object, and a target that is an ancestor of the reference yields a finite copy instead of a cycle (`Resolution.SharedTargetCounterexample`).
- Resolution.Resolver.SpliceAll: later splices do not reach the copies made by earlier ones, so a reference inside a spliced target stays in each copy made before it was resolved (`Resolution.SharedTargetCounterexample`).
- Resolution.Resolver.Splice: follows `Resolution.SpliceDoc`. For a reference under a member whose name holds `~1`, it writes under the decoded name and leaves the reference in place (`Resolution.SpliceTildeOneCounterexample`).
- Resolution.ResolveRefs: the same holds for references under members whose names hold `~1` (`Resolution.SpliceTildeOneCounterexample`).
- Resolution.ResolveRefs: the spliced clone has no sharing and no cycles. Where the code resolves a reference through a shared target, the model's clone can still hold it, and where the code builds a cycle the model holds a finite copy (`Resolution.SharedTargetCounterexample`).
- Resolution.OwnProperty: the own properties of a function (`length`, `name`, `prototype`) read as missing.
- Resolution.TraverseSet: follows the own members of the value model only. A path through an array's `length` or a string's characters ends in an unmodelled error or a TypeError; the traversal library would follow it.
- RefUtils.In: names inherited from `Object.prototype` or `Array.prototype`, and an array's `length`, give an unmodelled error instead of a value. So do `findValue`, `setValue` and `findAncestors` when they test such a name.
- Resolution.SpliceMeta: the root case records the target as evidently intended. `Resolution.SpliceMetaAsWritten` keeps the inverted flag of the code, see the second finding.
- Resolution.Step: a local reference's entry is the corrected `Resolution.SpliceMeta`. For a reference at the root the helper `u` as written records no value while the target exists, and the model records the target (`Resolution.RootStepMetadata`, `Resolution.RootMetadataCounterexample`).
- Resolution.Resolver.Splice: records the corrected `Resolution.SpliceMeta`; at the root, where `u` as written records no value for an existing target, the model records the target (`Resolution.RootMetadataCounterexample`).
- Resolution.Resolver.SpliceAll: through `Resolution.Step`, the metadata of a reference at the root is the corrected entry, not the code's entry without a value (`Resolution.RootStepMetadata`).
- Resolution.ResolveRefs: the metadata handed on is the corrected one. For `{"$ref": "#"}` it records the document under `#/$ref`, where the code records no value (`Resolution.RootStepMetadata`).
- Resolution.ResolveRefs: the outcome is decided from the rejection rules over all pending remote references. Requests for accepted references before the first rejected one, and synchronous cache hits with a failing nested resolution, are not represented; see the line on the asynchronous part above.
- Json.WriteMember: assignment follows strict mode. Sloppy-mode silent failure on primitives is not modelled. Array holes, named properties on arrays and properties of functions are reported as unmodelled errors, because the value model has no counterpart for them. Assigning to `__proto__` sets the object's prototype in JavaScript; here it writes an ordinary member.
- RefUtils.FindValue: `decodeURI` is the identity on segments, so percent-escapes in segments are not decoded.
- RefUtils.FindValue: models the evident intent. As written, `this.decodeURI` (lib/utils.js:156) is not a method of the class, so any non-empty path throws a TypeError ("this.decodeURI is not a function") before the first `in` test; only `findValue(obj, [])` returns (`RefUtils.FindValueAsWritten`, `RefUtils.FindValueAsWrittenThrows`).
- RefUtils.FindValueStops: states the intended errors. As written, the TypeError of `this.decodeURI` comes first; and even past it, `pathToPtr` (lib/utils.js:161) is bound nowhere, so the missing-location message would be replaced by a ReferenceError (`RefUtils.FindValueAsWritten`).
- RefUtils.SetValue: the last segment goes through the global `decodeURI` (lib/utils.js:312), which decodes `%XX` escapes and throws a URIError on a malformed one. Here it is the identity, so neither the decoding nor that error is modelled.
- RefUtils.SetValue: models the evident intent. As written, the free `findValue` (lib/utils.js:312) is unbound, so every call throws a ReferenceError before any argument is read (`RefUtils.SetValueAsWritten`, `RefUtils.SetValueAsWrittenThrows`).
- RefUtils.SetValue: the document is a value, and the updated document is returned instead of being changed in place. Aliasing between the caller's object and other holders of it is not captured.
- RefUtils.Walker.Walk: children are the members of an object and the elements of an array. lodash's `_.each` (its `baseEach`, browser/json-refs-min.js:44) walks any object whose `length` member is a valid array length as an array-like: by index from `0` to `length - 1`, so `{"length": 1}` is walked as the single child `undefined` under the key `0`. A function is walked the same way by its arity. The model walks such objects by their members and gives functions no children.
- RefUtils.Walker.Walk: models the evident intent. As written, the free `walk` (lib/utils.js:320) is unbound, so the first child makes `walkItem` throw a ReferenceError, after the iteratee has run on the node and with the node left on `ancestors` and the child's key on `path` (`RefUtils.WalkAsWritten`, `RefUtils.WalkAsWrittenThrows`).
- RefUtils.WalkVisitsEveryNode: holds for the model's walk, that is for the evident intent of the recursive call. As written the walk throws at the first child (`RefUtils.WalkAsWritten`), so the code calls the iteratee only on the root. For the intended code it holds only for documents with no function and no object whose `length` member is a valid array length; see the `RefUtils.Walker.Walk` line.
- RefUtils.Walker.Walk: the ancestor test compares values, not object identities. On a tree no node equals one of its ancestors, so the test never fires (`RefUtils.WalkVisitsEveryNode`). The cycle guard on shared or cyclic object graphs is not captured.
- RefUtils.RefFilter: a function-valued filter value (`FilterValue(Fn(..))`) is reported as unmodelled; a filter function is given as `FilterFunction`. Filters that are neither strings, lists, functions nor undefined leave the inner predicate undefined, which the model reports as the TypeError of calling it.
- RefUtils.RemoteDocumentCache.GetRemoteDocument: models the evident intent, a cache owned by the object. As written, `remoteCache` (lib/utils.js:195) is declared nowhere, so every call throws a ReferenceError before the loader runs (`RefUtils.GetRemoteDocumentAsWritten`, `RefUtils.FirstRequestAsWrittenThrows`).
- RefUtils.RemoteDocumentCache.GetRemoteDocument: the promise chain and the loader options are left out; the default content processor (`JSON.parse` of the response) is part of the abstracted `load`. Concurrent first requests for one URL are not modelled.
- Numbers are integers. Floating point does not occur in any path, key or reference the helpers handle.
- Object key order is insertion order. JavaScript's placement of integer-like keys first is not modelled. The metadata of `resolveRefs` is a map, so the order in which its keys were added is not kept.

## Findings

| source | as written | input that shows it | evidently intended | confidence | as-written member | corrected member |
|---|---|---|---|---|---|---|
| browser/json-refs-min.js:2 | `pathFromPointer` unescapes `~0` before `~1` | the path `["a~1b"]`: `pathToPointer` gives `#/a~01b`, which decodes to `["a/b"]` | `~1` before `~0`, as section 4 of RFC 6901 prescribes, so that every path round-trips | not executed | Pointer.DecodeEncodeTildeOneCounterexample | Pointer.DecodeRfcEncodePath |
| browser/json-refs-min.js:2 | in the splice helper `u`, the root case sets the missing flag when the source is defined | the document `{"$ref": "#"}`: the target exists, yet its metadata records no value | the value is recorded whenever the target exists, as in the non-root case | not executed | Resolution.RootMetadataCounterexample | Resolution.SpliceMetaRecordsTarget |
| lib/utils.js:156-161 | `findValue` calls `this.decodeURI(seg)`, which the class does not define, and builds its error with `pathToPtr`, which is bound nowhere | `findValue({"a": 1}, ["a"])`: a TypeError instead of `1` | each segment goes through the global `decodeURI`, and the error message uses the pointer encoding | not executed | RefUtils.FindValueAsWrittenThrows | RefUtils.FindValueFromGet |
| lib/utils.js:312 | `setValue` calls the free name `findValue`, which is unbound there | `setValue({}, ["a"], 1)`: a ReferenceError instead of the assignment | the class's own `this.findValue` | not executed | RefUtils.SetValueAsWrittenThrows | RefUtils.SetValueFrame |
| lib/utils.js:320 | `walkItem` calls the free name `walk`, which is unbound there | `walk([], {"a": 1}, [], fn)` with `fn` returning `true`: a ReferenceError after the first call, with `{"a": 1}` left on `ancestors` and `a` on `path` | the class's own `walk`, reached through the instance | not executed | RefUtils.WalkAsWrittenThrows | RefUtils.WalkVisitsEveryNode |
| lib/utils.js:195 | `getRemoteDocument` reads `remoteCache[url]`, which is declared nowhere | any call, e.g. the first request for a URL: a ReferenceError before the loader runs | a cache map kept across calls | not executed | RefUtils.FirstRequestAsWrittenThrows | RefUtils.GetTwice |
| lib/utils.js:295 | the predicate returned by `makeRefFilter` calls `this.refFilter`, which `RefUtils` does not define | any valid reference, e.g. a `same-document` one with no filter: the call throws a TypeError | the predicate calls the local `refFilter` built at lines 280-292 | not executed | RefUtils.UndefinedFilterAsWrittenThrows | RefUtils.UndefinedFilterAcceptsAll |

=== FILE: Json.dfy ===
/**
 * JavaScript values as the JSON Reference helpers handle them: JSON data, plus
 * `undefined` and function values, which the helpers test their arguments for.
 *
 * Objects are association lists in key order (the order `Object.keys` and the
 * traversals see). Property access follows own members only: object members
 * and array elements addressed by their canonical decimal index.
 */
module Json {

  datatype Option<+T> = None | Some(value: T)

  /** What the helpers throw: `new Error(message)`, a TypeError or a
      ReferenceError raised by the JavaScript runtime, or a behaviour this value
      model cannot represent. */
  datatype Error =
    | Error(message: string)
    | TypeError(message: string)
    | ReferenceError(message: string)
    | Unmodelled(message: string)

  datatype Result<+T> = Ok(value: T) | Err(error: Error)

  datatype Field = Field(key: string, value: Value)

  datatype Value =
    | Undefined
    | Null
    | Bool(b: bool)
    | Num(n: int)
    | Str(s: string)
    | Arr(elems: seq<Value>)
    | Obj(fields: seq<Field>)
    | Fn(name: string)

  /** `_.isPlainObject`: an object literal, not an array, function or null. */
  predicate IsPlainObject(v: Value) {
    v.Obj?
  }

  // ---------------------------------------------------------------------------
  // Object members

  /** The keys of an object's members, in order. */
  function Keys(fields: seq<Field>): (ks: seq<string>)
    ensures |ks| == |fields|
  {
    if |fields| == 0 then [] else [fields[0].key] + Keys(fields[1..])
  }

  lemma {:induction false} KeysAt(fields: seq<Field>)
    ensures forall i :: 0 <= i < |fields| ==> Keys(fields)[i] == fields[i].key
  {
    if |fields| > 0 {
      KeysAt(fields[1..]);
    }
  }

  predicate DistinctKeys(fields: seq<Field>) {
    forall i, j :: 0 <= i < j < |fields| ==> fields[i].key != fields[j].key
  }

  /** A JavaScript object never holds two members under one key. */
  ghost predicate WellFormed(v: Value) {
    match v
    case Arr(a) => forall i :: 0 <= i < |a| ==> WellFormed(a[i])
    case Obj(fs) => DistinctKeys(fs) && forall i :: 0 <= i < |fs| ==> WellFormed(fs[i].value)
    case _ => true
  }

  /** `obj[key]` for an own member `key`. */
  function Lookup(fields: seq<Field>, key: string): (r: Option<Value>)
    ensures r.Some? <==> key in Keys(fields)
    ensures r.Some? ==> exists i :: 0 <= i < |fields| && fields[i] == Field(key, r.value)
  {
    if |fields| == 0 then None
    else if fields[0].key == key then Some(fields[0].value)
    else
      var r := Lookup(fields[1..], key);
      assert r.Some? ==> exists i :: 0 <= i < |fields| - 1 && fields[1..][i] == Field(key, r.value);
      r
  }

  /** `obj[key] = v` on an object: the member is overwritten in place, or appended. */
  function Put(fields: seq<Field>, key: string, v: Value): (r: seq<Field>)
    ensures Lookup(r, key) == Some(v)
    ensures forall k :: k != key ==> Lookup(r, k) == Lookup(fields, k)
  {
    if |fields| == 0 then [Field(key, v)]
    else if fields[0].key == key then [Field(key, v)] + fields[1..]
    else [fields[0]] + Put(fields[1..], key, v)
  }

  /** Overwriting keeps the key order; a new key goes last. */
  lemma PutKeys(fields: seq<Field>, key: string, v: Value)
    ensures key in Keys(fields) ==> Keys(Put(fields, key, v)) == Keys(fields)
    ensures key !in Keys(fields) ==> Keys(Put(fields, key, v)) == Keys(fields) + [key]
  {
    if key in Keys(fields) {
      PutKeysPresent(fields, key, v);
    } else {
      PutKeysAbsent(fields, key, v);
    }
  }

  lemma {:induction false} PutKeysPresent(fields: seq<Field>, key: string, v: Value)
    requires key in Keys(fields)
    ensures Keys(Put(fields, key, v)) == Keys(fields)
  {
    if fields[0].key != key {
      PutKeysPresent(fields[1..], key, v);
      KeysCons(fields[0], Put(fields[1..], key, v));
      KeysCons(fields[0], fields[1..]);
      assert fields == [fields[0]] + fields[1..];
    } else {
      KeysCons(Field(key, v), fields[1..]);
      KeysCons(fields[0], fields[1..]);
      assert fields == [fields[0]] + fields[1..];
    }
  }

  lemma {:induction false} PutKeysAbsent(fields: seq<Field>, key: string, v: Value)
    requires key !in Keys(fields)
    ensures Keys(Put(fields, key, v)) == Keys(fields) + [key]
  {
    if |fields| > 0 {
      var ks := Keys(fields[1..]);
      KeysCons(fields[0], fields[1..]);
      assert fields == [fields[0]] + fields[1..];
      assert key !in ks;
      PutKeysAbsent(fields[1..], key, v);
      KeysCons(fields[0], Put(fields[1..], key, v));
      assert [fields[0].key] + (ks + [key]) == [fields[0].key] + ks + [key];
    }
  }

  lemma KeysCons(f: Field, fields: seq<Field>)
    ensures Keys([f] + fields) == [f.key] + Keys(fields)
  {
    assert ([f] + fields)[1..] == fields;
  }

  lemma DistinctKeysAsSet(fields: seq<Field>)
    requires DistinctKeys(fields)
    ensures forall i :: 0 <= i < |fields| ==> Lookup(fields, fields[i].key) == Some(fields[i].value)
  {
    forall i | 0 <= i < |fields|
      ensures Lookup(fields, fields[i].key) == Some(fields[i].value)
    {
      LookupAt(fields, i);
    }
  }

  lemma LookupAt(fields: seq<Field>, i: nat)
    requires DistinctKeys(fields) && i < |fields|
    ensures Lookup(fields, fields[i].key) == Some(fields[i].value)
  {
    if i > 0 {
      LookupAt(fields[1..], i - 1);
    }
  }

  lemma PutKeepsDistinct(fields: seq<Field>, key: string, v: Value)
    requires DistinctKeys(fields)
    ensures DistinctKeys(Put(fields, key, v))
  {
    var r := Put(fields, key, v);
    PutKeys(fields, key, v);
    KeysAt(fields);
    KeysAt(r);
    if key in Keys(fields) {
      assert Keys(r) == Keys(fields);
    } else {
      assert Keys(r) == Keys(fields) + [key];
    }
    forall i, j | 0 <= i < j < |r| ensures r[i].key != r[j].key {
      assert Keys(r)[i] == r[i].key && Keys(r)[j] == r[j].key;
      if j < |fields| {
        assert Keys(fields)[i] == fields[i].key && Keys(fields)[j] == fields[j].key;
      } else {
        assert Keys(fields)[i] == fields[i].key;
      }
    }
  }

  // ---------------------------------------------------------------------------
  // Array indices as property names

  predicate IsDigit(c: char) {
    '0' <= c <= '9'
  }

  predicate IsDigits(s: string) {
    forall i :: 0 <= i < |s| ==> IsDigit(s[i])
  }

  function DigitChar(d: nat): (c: char)
    requires d < 10
    ensures IsDigit(c)
  {
    (('0' as int) + d) as char
  }

  /** `n.toString()` for a non-negative integer. */
  function DecimalString(n: nat): (s: string)
    ensures |s| > 0 && IsDigits(s)
    ensures |s| > 1 ==> s[0] != '0'
    ensures n > 0 ==> s[0] != '0'
  {
    if n < 10 then [DigitChar(n)] else DecimalString(n / 10) + [DigitChar(n % 10)]
  }

  function DigitsValue(s: string): nat
    requires IsDigits(s)
  {
    if |s| == 0 then 0 else 10 * DigitsValue(s[..|s| - 1]) + (s[|s| - 1] as int - '0' as int)
  }

  /** A property name that denotes an array element: decimal digits without a leading zero. */
  predicate IsCanonicalIndex(key: string) {
    |key| > 0 && IsDigits(key) && (|key| > 1 ==> key[0] != '0')
  }

  /** The array element a property name denotes, if any. */
  function ArrayIndex(key: string): (r: Option<nat>)
    ensures r.Some? <==> IsCanonicalIndex(key)
  {
    if IsCanonicalIndex(key) then Some(DigitsValue(key)) else None
  }

  lemma DigitsValueOfDecimal(n: nat)
    ensures DigitsValue(DecimalString(n)) == n
  {
    if n >= 10 {
      DigitsValueOfDecimal(n / 10);
      var s := DecimalString(n);
      assert s[..|s| - 1] == DecimalString(n / 10);
    }
  }

  /** Array indices written by `index.toString()` address the element again. */
  lemma {:induction false} ArrayIndexOfDecimal(n: nat)
    ensures ArrayIndex(DecimalString(n)) == Some(n)
  {
    DigitsValueOfDecimal(n);
  }

  lemma LeadingDigitPositive(s: string)
    requires IsDigits(s) && |s| > 0 && s[0] != '0'
    ensures DigitsValue(s) > 0
  {
    if |s| > 1 {
      assert s[..|s| - 1][0] == s[0];
      LeadingDigitPositive(s[..|s| - 1]);
    }
  }

  lemma {:induction false} DecimalOfDigits(s: string)
    requires IsCanonicalIndex(s)
    ensures DecimalString(DigitsValue(s)) == s
  {
    if |s| > 1 {
      var init := s[..|s| - 1];
      assert init[0] == s[0];
      LeadingDigitPositive(init);
      DecimalOfDigits(init);
      var d := s[|s| - 1] as int - '0' as int;
      var n := DigitsValue(s);
      assert n == 10 * DigitsValue(init) + d;
      assert n / 10 == DigitsValue(init) && n % 10 == d;
      assert DigitChar(d) == s[|s| - 1];
      assert s == init + [s[|s| - 1]];
    }
  }

  /** Distinct property names never denote the same array element. */
  lemma ArrayIndexInjective(k1: string, k2: string)
    requires ArrayIndex(k1).Some? && ArrayIndex(k1) == ArrayIndex(k2)
    ensures k1 == k2
  {
    DecimalOfDigits(k1);
    DecimalOfDigits(k2);
  }

  // ---------------------------------------------------------------------------
  // Reading and writing members and paths

  /** The own member `v[key]`: an object member, or an array element by canonical index. */
  function Member(v: Value, key: string): (r: Option<Value>)
    ensures r.Some? ==> v.Obj? || v.Arr?
  {
    match v
    case Obj(fs) => Lookup(fs, key)
    case Arr(a) =>
      (match ArrayIndex(key)
       case Some(i) => if i < |a| then Some(a[i]) else None
       case None => None)
    case _ => None
  }

  /** The value at `path` below `v`; None where a segment names no member. */
  function Get(v: Value, path: seq<string>): Option<Value> {
    if |path| == 0 then Some(v)
    else
      match Member(v, path[0])
      case Some(c) => Get(c, path[1..])
      case None => None
  }

  /** Two paths that part at some segment: neither addresses a location inside the other. */
  predicate Disjoint(p: seq<string>, q: seq<string>) {
    exists i :: 0 <= i < |p| && i < |q| && p[i] != q[i]
  }

  lemma {:induction false} GetAppend(v: Value, p: seq<string>, q: seq<string>)
    ensures Get(v, p + q) == match Get(v, p) case Some(u) => Get(u, q) case None => None
  {
    if |p| == 0 {
      assert p + q == q;
    } else {
      assert (p + q)[0] == p[0] && (p + q)[1..] == p[1..] + q;
      match Member(v, p[0])
      case Some(c) => GetAppend(c, p[1..], q);
      case None =>
    }
  }

  /** Overwrites the existing member `key` of `v` (an object member or an array element). */
  function UpdateMember(v: Value, key: string, x: Value): (r: Value)
    requires Member(v, key).Some?
    ensures Member(r, key) == Some(x)
    ensures forall k :: k != key ==> Member(r, k) == Member(v, k)
  {
    if v.Obj? then
      Obj(Put(v.fields, key, x))
    else
      var i := ArrayIndex(key).value;
      var r := Arr(v.elems[i := x]);
      assert forall k :: k != key && ArrayIndex(k).Some? ==> ArrayIndex(k).value != i by {
        forall k | k != key && ArrayIndex(k).Some? ensures ArrayIndex(k).value != i {
          if ArrayIndex(k).value == i { ArrayIndexInjective(k, key); }
        }
      }
      r
  }

  /** Assigning at index `length` appends, and no other member changes. */
  lemma ArrayAppendMembers(a: seq<Value>, key: string, x: Value)
    requires ArrayIndex(key) == Some(|a|)
    ensures Member(Arr(a + [x]), key) == Some(x)
    ensures forall k :: k != key ==> Member(Arr(a + [x]), k) == Member(Arr(a), k)
  {
    forall k | k != key && ArrayIndex(k).Some? ensures ArrayIndex(k).value != |a| {
      if ArrayIndex(k).value == |a| { ArrayIndexInjective(k, key); }
    }
  }

  /** `v[key] = x` in strict mode. Assigning to `undefined`, `null` or another
      primitive throws; array holes, named array properties and function
      properties have no counterpart in the value model. */
  function WriteMember(v: Value, key: string, x: Value): (r: Result<Value>)
    ensures r.Ok? <==> v.Obj? || (v.Arr? && ArrayIndex(key).Some? && ArrayIndex(key).value <= |v.elems|)
    ensures r.Ok? ==> Member(r.value, key) == Some(x)
    ensures r.Ok? ==> forall k :: k != key ==> Member(r.value, k) == Member(v, k)
    ensures (v.Undefined? || v.Null? || v.Bool? || v.Num? || v.Str?) ==> r.Err? && r.error.TypeError?
  {
    if Member(v, key).Some? then
      Ok(UpdateMember(v, key, x))
    else
      match v
      case Obj(fs) => Ok(Obj(Put(fs, key, x)))
      case Arr(a) =>
        if ArrayIndex(key) == Some(|a|) then
          ArrayAppendMembers(a, key, x);
          Ok(Arr(a + [x]))
        else if ArrayIndex(key).Some? then Err(Unmodelled("assignment past the end of an array"))
        else Err(Unmodelled("named property on an array"))
      case Undefined => Err(TypeError("Cannot set properties of undefined"))
      case Null => Err(TypeError("Cannot set properties of null"))
      case Fn(_) => Err(Unmodelled("property of a function"))
      case _ => Err(TypeError("Cannot create property on a primitive value"))
  }

  /** `v` with its existing location `path` replaced by `x`: the value an
      in-place assignment at `path` leaves behind. */
  function ReplaceAt(v: Value, path: seq<string>, x: Value): (r: Value)
    requires Get(v, path).Some?
    ensures Get(r, path) == Some(x)
    decreases |path|
  {
    if |path| == 0 then x
    else
      var c := Member(v, path[0]).value;
      var r := UpdateMember(v, path[0], ReplaceAt(c, path[1..], x));
      r
  }

  /** Replacing one location leaves every location disjoint from it as it was. */
  lemma {:induction false} ReplaceAtFrame(v: Value, path: seq<string>, x: Value, q: seq<string>)
    requires Get(v, path).Some?
    requires Disjoint(path, q)
    ensures Get(ReplaceAt(v, path, x), q) == Get(v, q)
    decreases |path|
  {
    var i :| 0 <= i < |path| && i < |q| && path[i] != q[i];
    var r := ReplaceAt(v, path, x);
    if path[0] != q[0] {
      assert Member(r, q[0]) == Member(v, q[0]);
    } else {
      var c := Member(v, path[0]).value;
      assert path[1..][i - 1] != q[1..][i - 1];
      ReplaceAtFrame(c, path[1..], x, q[1..]);
    }
  }
}

=== FILE: Pointer.dfy ===
/**
 * The JSON Pointer codec of the browser build (RFC 6901 pointers written as URI
 * fragments): a path of segments becomes `#/seg1/seg2`, and back. Also the two
 * shape predicates exported beside it, `isRemotePointer` and `isJsonReference`.
 *
 * `pathFromPointer` unescapes `~0` before `~1`, the reverse of the order section 4
 * of RFC 6901 prescribes; `Decode` models that as written and `DecodeRfc` is the
 * prescribed order, which the resolution model uses.
 */
module Pointer {
  import opened Json

  // ---------------------------------------------------------------------------
  // Escaping one segment

  /** `s.replace(/~/g, "~0")`. */
  function EscapeTildes(s: string): string {
    if |s| == 0 then [] else (if s[0] == '~' then "~0" else [s[0]]) + EscapeTildes(s[1..])
  }

  /** `s.replace(/\//g, "~1")`. */
  function EscapeSlashes(s: string): string {
    if |s| == 0 then [] else (if s[0] == '/' then "~1" else [s[0]]) + EscapeSlashes(s[1..])
  }

  /** The escaping `pathToPointer` applies to each segment: tildes first, then slashes. */
  function Escape(seg: string): (r: string)
    ensures '/' !in r
  {
    EscapedHasNoSlash(EscapeTildes(seg));
    EscapeSlashes(EscapeTildes(seg))
  }

  /** `s.replace(/~d/g, [c])`: every `~` followed by `d` becomes `c`, scanning
      left to right without overlap. */
  function ReplaceTildePair(s: string, d: char, c: char): string {
    if |s| == 0 then []
    else if |s| >= 2 && s[0] == '~' && s[1] == d then [c] + ReplaceTildePair(s[2..], d, c)
    else [s[0]] + ReplaceTildePair(s[1..], d, c)
  }

  /** The unescaping `pathFromPointer` applies, as written: `~0` first, then `~1`. */
  function Unescape(token: string): string {
    ReplaceTildePair(ReplaceTildePair(token, '0', '~'), '1', '/')
  }

  /** The unescaping of section 4 of RFC 6901: `~1` first, then `~0`. */
  function UnescapeRfc(token: string): string {
    ReplaceTildePair(ReplaceTildePair(token, '1', '/'), '0', '~')
  }

  /** The segment holds the two characters `~1` in a row. */
  predicate HasTildeOne(s: string) {
    exists i :: 0 <= i < |s| - 1 && s[i] == '~' && s[i + 1] == '1'
  }

  // ---------------------------------------------------------------------------
  // Joining and splitting

  /** `segs.join("/")`. */
  function Join(segs: seq<string>): string {
    if |segs| == 0 then ""
    else if |segs| == 1 then segs[0]
    else segs[0] + "/" + Join(segs[1..])
  }

  /** `s.split("/")`: the pieces between slashes, at least one. */
  function Split(s: string): (r: seq<string>)
    ensures |r| >= 1
  {
    if |s| == 0 then [""]
    else
      var rest := Split(s[1..]);
      if s[0] == '/' then [""] + rest else [[s[0]] + rest[0]] + rest[1..]
  }

  function EscapeAll(segs: seq<string>): (r: seq<string>)
    ensures |r| == |segs| && forall i :: 0 <= i < |segs| ==> r[i] == Escape(segs[i])
  {
    seq(|segs|, i requires 0 <= i < |segs| => Escape(segs[i]))
  }

  function UnescapeAll(tokens: seq<string>): (r: seq<string>)
    ensures |r| == |tokens| && forall i :: 0 <= i < |tokens| ==> r[i] == Unescape(tokens[i])
  {
    seq(|tokens|, i requires 0 <= i < |tokens| => Unescape(tokens[i]))
  }

  function UnescapeAllRfc(tokens: seq<string>): (r: seq<string>)
    ensures |r| == |tokens| && forall i :: 0 <= i < |tokens| ==> r[i] == UnescapeRfc(tokens[i])
  {
    seq(|tokens|, i requires 0 <= i < |tokens| => UnescapeRfc(tokens[i]))
  }

  // ---------------------------------------------------------------------------
  // The codec

  /** The pointer string `pathToPointer` builds from a list of segments. */
  function EncodePath(segs: seq<string>): string {
    if |segs| == 0 then "#" else "#/" + Join(EscapeAll(segs))
  }

  /** What `pathFromPointer` returns: a remote pointer comes back unchanged, as a
      string; a local one as its list of segments. */
  datatype Parsed = RemotePointer(ptr: string) | Segments(segs: seq<string>)

  /** `isRemotePointer` on a string: it does not start with `#` (the empty string included). */
  predicate IsRemote(s: string) {
    |s| == 0 || s[0] != '#'
  }

  /** The escaped tokens of a local pointer other than `#`: the text after `#`
      split on `/`, without the leading empty piece when there is more than one. */
  function Tokens(s: string): seq<string>
    requires |s| > 0
  {
    var pieces := Split(s[1..]);
    if |pieces| > 1 then pieces[1..] else pieces
  }

  /** `pathFromPointer` on a string, as written. */
  function Decode(s: string): Parsed {
    if IsRemote(s) then RemotePointer(s)
    else if s == "#" then Segments([])
    else Segments(UnescapeAll(Tokens(s)))
  }

  /** `pathFromPointer` on a string with the unescaping order of RFC 6901. */
  function DecodeRfc(s: string): Parsed {
    if IsRemote(s) then RemotePointer(s)
    else if s == "#" then Segments([])
    else Segments(UnescapeAllRfc(Tokens(s)))
  }

  // ---------------------------------------------------------------------------
  // The exported functions, with their argument checks

  /** The segments of a JavaScript array whose members are all strings. */
  function Strings(vs: seq<Value>): (r: Option<seq<string>>)
    ensures r.Some? <==> forall i :: 0 <= i < |vs| ==> vs[i].Str?
    ensures r.Some? ==> |r.value| == |vs| && forall i :: 0 <= i < |vs| ==> vs[i] == Str(r.value[i])
  {
    if |vs| == 0 then Some([])
    else if !vs[0].Str? then None
    else
      match Strings(vs[1..])
      case Some(rest) => Some([vs[0].s] + rest)
      case None => None
  }

  /** `pathToPointer(path)`. A member that is not a string has no `replace`
      method, so the runtime throws a TypeError. */
  function PathToPointer(path: Value): (r: Result<string>)
    ensures path.Undefined? ==> r == Err(Error("path is required"))
    ensures !path.Undefined? && !path.Arr? ==> r == Err(Error("path must be an array"))
    ensures r.Ok? <==> path.Arr? && Strings(path.elems).Some?
    ensures path.Arr? && Strings(path.elems).None? ==> r.Err? && r.error.TypeError?
    ensures r.Ok? ==> r.value == EncodePath(Strings(path.elems).value)
  {
    if path.Undefined? then Err(Error("path is required"))
    else if !path.Arr? then Err(Error("path must be an array"))
    else
      match Strings(path.elems)
      case Some(segs) => Ok(EncodePath(segs))
      case None => Err(TypeError("e.replace is not a function"))
  }

  /** `isRemotePointer(ptr)`. */
  function IsRemotePointer(ptr: Value): (r: Result<bool>)
    ensures ptr.Undefined? ==> r == Err(Error("ptr is required"))
    ensures !ptr.Undefined? && !ptr.Str? ==> r == Err(Error("ptr must be a string"))
    ensures ptr.Str? ==> r.Ok? && (r.value <==> |ptr.s| == 0 || ptr.s[0] != '#')
  {
    if ptr.Undefined? then Err(Error("ptr is required"))
    else if !ptr.Str? then Err(Error("ptr must be a string"))
    else Ok(IsRemote(ptr.s))
  }

  /** `pathFromPointer(ptr)`. */
  function PathFromPointer(ptr: Value): (r: Result<Parsed>)
    ensures ptr.Undefined? ==> r == Err(Error("ptr is required"))
    ensures !ptr.Undefined? && !ptr.Str? ==> r == Err(Error("ptr must be a string"))
    ensures ptr.Str? && IsRemote(ptr.s) ==> r == Ok(RemotePointer(ptr.s))
    ensures ptr == Str("#") ==> r == Ok(Segments([]))
    ensures ptr.Str? && !IsRemote(ptr.s) ==> r.Ok? && r.value.Segments?
    ensures ptr.Str? ==> r == Ok(Decode(ptr.s))
  {
    if ptr.Undefined? then Err(Error("ptr is required"))
    else if !ptr.Str? then Err(Error("ptr must be a string"))
    else Ok(Decode(ptr.s))
  }

  /** `isJsonReference(v)`: a plain object whose `$ref` is a string. */
  predicate IsJsonReference(v: Value): (b: bool)
    ensures b ==> v.Obj? && exists i :: 0 <= i < |v.fields| && v.fields[i].key == "$ref" && v.fields[i].value.Str?
  {
    v.Obj? && Lookup(v.fields, "$ref").Some? && Lookup(v.fields, "$ref").value.Str?
  }

  // ---------------------------------------------------------------------------
  // Lemmas: escaping

  lemma EscapedHasNoSlash(s: string)
    ensures '/' !in EscapeSlashes(s)
  {
  }

  lemma {:induction false} EscapeSlashesAppend(a: string, b: string)
    ensures EscapeSlashes(a + b) == EscapeSlashes(a) + EscapeSlashes(b)
  {
    if |a| > 0 {
      assert (a + b)[1..] == a[1..] + b;
      EscapeSlashesAppend(a[1..], b);
    } else {
      assert a + b == b;
    }
  }

  lemma EscapeCons(s: string)
    requires |s| > 0
    ensures Escape(s) == (if s[0] == '~' then "~0" else if s[0] == '/' then "~1" else [s[0]]) + Escape(s[1..])
  {
    var head := if s[0] == '~' then "~0" else [s[0]];
    assert EscapeTildes(s) == head + EscapeTildes(s[1..]);
    EscapeSlashesAppend(head, EscapeTildes(s[1..]));
  }

  lemma ReplaceOther(c: char, x: string, d: char, r: char)
    requires c != '~'
    ensures ReplaceTildePair([c] + x, d, r) == [c] + ReplaceTildePair(x, d, r)
  {
    assert ([c] + x)[1..] == x;
  }

  lemma ReplaceLoneTilde(x: string, d: char, r: char)
    requires |x| == 0 || x[0] != d
    ensures ReplaceTildePair("~" + x, d, r) == "~" + ReplaceTildePair(x, d, r)
  {
    assert ("~" + x)[1..] == x;
  }

  lemma ReplaceMatch(x: string, d: char, r: char)
    ensures ReplaceTildePair(['~', d] + x, d, r) == [r] + ReplaceTildePair(x, d, r)
  {
    assert (['~', d] + x)[2..] == x;
  }

  /** After the first pass of the as-written unescaping, an escaped segment is
      the original with each `/` written as `~1`. */
  lemma {:induction false} UnescapeTildeZeroOfEscape(s: string)
    ensures ReplaceTildePair(Escape(s), '0', '~') == EscapeSlashes(s)
  {
    if |s| > 0 {
      EscapeCons(s);
      UnescapeTildeZeroOfEscape(s[1..]);
      var rest := Escape(s[1..]);
      if s[0] == '/' {
        ReplaceLoneTilde("1" + rest, '0', '~');
        ReplaceOther('1', rest, '0', '~');
        assert "~1" + rest == "~" + ("1" + rest);
      } else if s[0] == '~' {
        ReplaceMatch(rest, '0', '~');
      } else {
        ReplaceOther(s[0], rest, '0', '~');
      }
    }
  }

  /** Writing slashes as `~1` and then turning every `~1` into `/` is the same
      as turning every `~1` of the original into `/`. */
  lemma {:induction false} ReplaceTildeOneOfEscapedSlashes(s: string)
    ensures ReplaceTildePair(EscapeSlashes(s), '1', '/') == ReplaceTildePair(s, '1', '/')
    decreases |s|
  {
    if |s| > 0 {
      var rest := s[1..];
      ReplaceTildeOneOfEscapedSlashes(rest);
      if s[0] == '~' && |rest| > 0 && rest[0] == '1' {
        ReplaceTildeOneOfEscapedSlashes(rest[1..]);
        TildeOneStep(s);
      } else {
        OtherStep(s);
      }
    }
  }

  /** The step of `ReplaceTildeOneOfEscapedSlashes` for a leading `~1`. */
  lemma TildeOneStep(s: string)
    requires |s| >= 2 && s[0] == '~' && s[1] == '1'
    requires ReplaceTildePair(EscapeSlashes(s[2..]), '1', '/') == ReplaceTildePair(s[2..], '1', '/')
    ensures ReplaceTildePair(EscapeSlashes(s), '1', '/') == ReplaceTildePair(s, '1', '/')
  {
    var tail := s[2..];
    assert s[1..][1..] == tail;
    assert EscapeSlashes(s) == ['~', '1'] + EscapeSlashes(tail);
    ReplaceMatch(EscapeSlashes(tail), '1', '/');
  }

  /** The step of `ReplaceTildeOneOfEscapedSlashes` for any other first character. */
  lemma OtherStep(s: string)
    requires |s| > 0 && !(s[0] == '~' && |s| >= 2 && s[1] == '1')
    requires ReplaceTildePair(EscapeSlashes(s[1..]), '1', '/') == ReplaceTildePair(s[1..], '1', '/')
    ensures ReplaceTildePair(EscapeSlashes(s), '1', '/') == ReplaceTildePair(s, '1', '/')
  {
    var rest := s[1..];
    if s[0] == '/' {
      ReplaceMatch(EscapeSlashes(rest), '1', '/');
      assert EscapeSlashes(s) == ['~', '1'] + EscapeSlashes(rest);
    } else if s[0] == '~' {
      assert EscapeSlashes(s) == "~" + EscapeSlashes(rest);
      ReplaceLoneTilde(EscapeSlashes(rest), '1', '/');
    } else {
      assert EscapeSlashes(s) == [s[0]] + EscapeSlashes(rest);
      ReplaceOther(s[0], EscapeSlashes(rest), '1', '/');
    }
  }

  /** As written, unescaping an escaped segment turns each `~1` of the original
      segment into `/`. */
  lemma UnescapeOfEscape(s: string)
    ensures Unescape(Escape(s)) == ReplaceTildePair(s, '1', '/')
  {
    UnescapeTildeZeroOfEscape(s);
    ReplaceTildeOneOfEscapedSlashes(s);
  }

  lemma {:induction false} ReplaceTildeOneShortens(s: string)
    ensures |ReplaceTildePair(s, '1', '/')| <= |s|
    ensures HasTildeOne(s) ==> |ReplaceTildePair(s, '1', '/')| < |s|
    decreases |s|
  {
    if |s| >= 2 && s[0] == '~' && s[1] == '1' {
      ReplaceTildeOneShortens(s[2..]);
    } else if |s| > 0 {
      ReplaceTildeOneShortens(s[1..]);
      if HasTildeOne(s) {
        var i :| 0 <= i < |s| - 1 && s[i] == '~' && s[i + 1] == '1';
        assert i > 0;
        assert s[1..][i - 1] == '~' && s[1..][i] == '1';
      }
    }
  }

  lemma {:induction false} ReplaceTildeOneIdentity(s: string)
    requires !HasTildeOne(s)
    ensures ReplaceTildePair(s, '1', '/') == s
    decreases |s|
  {
    if |s| > 0 {
      assert !(|s| >= 2 && s[0] == '~' && s[1] == '1');
      assert !HasTildeOne(s[1..]);
      ReplaceTildeOneIdentity(s[1..]);
    }
  }

  /** As written, a segment survives escaping and unescaping exactly when it
      does not hold `~1`. */
  lemma SegmentRoundTrip(s: string)
    ensures Unescape(Escape(s)) == s <==> !HasTildeOne(s)
  {
    UnescapeOfEscape(s);
    ReplaceTildeOneShortens(s);
    if !HasTildeOne(s) {
      ReplaceTildeOneIdentity(s);
    }
  }

  lemma {:induction false} NoTildeOneAfterEscapingTildes(s: string)
    ensures ReplaceTildePair(EscapeTildes(s), '1', '/') == EscapeTildes(s)
  {
    if |s| > 0 {
      NoTildeOneAfterEscapingTildes(s[1..]);
      if s[0] == '~' {
        EscapedTildeStep(s);
      } else {
        assert EscapeTildes(s) == [s[0]] + EscapeTildes(s[1..]);
        ReplaceOther(s[0], EscapeTildes(s[1..]), '1', '/');
      }
    }
  }

  lemma EscapedTildeStep(s: string)
    requires |s| > 0 && s[0] == '~'
    requires ReplaceTildePair(EscapeTildes(s[1..]), '1', '/') == EscapeTildes(s[1..])
    ensures ReplaceTildePair(EscapeTildes(s), '1', '/') == EscapeTildes(s)
  {
    var rest := EscapeTildes(s[1..]);
    assert EscapeTildes(s) == ['~'] + (['0'] + rest);
    ReplaceOther('0', rest, '1', '/');
    ReplaceLoneTilde(['0'] + rest, '1', '/');
  }

  lemma {:induction false} UnescapeTildeZeroOfEscapedTildes(s: string)
    ensures ReplaceTildePair(EscapeTildes(s), '0', '~') == s
  {
    if |s| > 0 {
      UnescapeTildeZeroOfEscapedTildes(s[1..]);
      var rest := EscapeTildes(s[1..]);
      if s[0] == '~' {
        ReplaceMatch(rest, '0', '~');
      } else {
        ReplaceOther(s[0], rest, '0', '~');
      }
      assert s == [s[0]] + s[1..];
    }
  }

  /** With the order of RFC 6901, unescaping undoes escaping for every segment. */
  lemma SegmentRoundTripRfc(s: string)
    ensures UnescapeRfc(Escape(s)) == s
  {
    ReplaceTildeOneOfEscapedSlashes(EscapeTildes(s));
    NoTildeOneAfterEscapingTildes(s);
    UnescapeTildeZeroOfEscapedTildes(s);
  }

  // ---------------------------------------------------------------------------
  // Lemmas: splitting what was joined

  lemma {:induction false} SplitWithoutSlash(x: string)
    requires '/' !in x
    ensures Split(x) == [x]
  {
    if |x| > 0 {
      assert x[0] != '/';
      assert '/' !in x[1..];
      SplitWithoutSlash(x[1..]);
      assert x == [x[0]] + x[1..];
    }
  }

  lemma {:induction false} SplitAtSlash(x: string, y: string)
    requires '/' !in x
    ensures Split(x + "/" + y) == [x] + Split(y)
  {
    if |x| == 0 {
      assert x + "/" + y == "/" + y;
      assert ("/" + y)[1..] == y;
    } else {
      assert x[0] != '/';
      assert '/' !in x[1..];
      SplitAtSlash(x[1..], y);
      assert (x + "/" + y)[1..] == x[1..] + "/" + y;
      assert x == [x[0]] + x[1..];
    }
  }

  lemma {:induction false} SplitJoin(tokens: seq<string>)
    requires |tokens| > 0
    requires forall i :: 0 <= i < |tokens| ==> '/' !in tokens[i]
    ensures Split(Join(tokens)) == tokens
  {
    if |tokens| == 1 {
      SplitWithoutSlash(tokens[0]);
    } else {
      SplitJoin(tokens[1..]);
      SplitAtSlash(tokens[0], Join(tokens[1..]));
    }
  }

  /** The tokens of an encoded non-empty path are its escaped segments. */
  lemma TokensOfEncodePath(segs: seq<string>)
    requires |segs| > 0
    ensures !IsRemote(EncodePath(segs)) && EncodePath(segs) != "#"
    ensures Tokens(EncodePath(segs)) == EscapeAll(segs)
  {
    var e := EscapeAll(segs);
    var s := EncodePath(segs);
    SplitJoin(e);
    assert s[1..] == "" + "/" + Join(e);
    SplitAtSlash("", Join(e));
  }

  // ---------------------------------------------------------------------------
  // Lemmas: the codec

  /** `pathToPointer` always builds a local pointer, and `#` only for the empty path. */
  lemma EncodePathIsLocal(segs: seq<string>)
    ensures !IsRemote(EncodePath(segs))
    ensures EncodePath(segs) == "#" <==> segs == []
  {
    if segs != [] {
      TokensOfEncodePath(segs);
    }
  }

  /** The round trip through the codec as written: a path comes back unchanged
      exactly when none of its segments holds `~1`. */
  lemma DecodeEncodePath(segs: seq<string>)
    ensures Decode(EncodePath(segs)) == Segments(segs) <==>
            forall i :: 0 <= i < |segs| ==> !HasTildeOne(segs[i])
  {
    if segs != [] {
      TokensOfEncodePath(segs);
      var d := UnescapeAll(EscapeAll(segs));
      assert Decode(EncodePath(segs)) == Segments(d);
      forall i | 0 <= i < |segs| ensures d[i] == segs[i] <==> !HasTildeOne(segs[i]) {
        SegmentRoundTrip(segs[i]);
      }
      if d == segs {
        forall i | 0 <= i < |segs| ensures !HasTildeOne(segs[i]) { assert d[i] == segs[i]; }
      }
    }
  }

  /** What the codec as written gives back for any path: the same number of
      segments, each with every `~1` turned into `/`. */
  lemma DecodeEncodePathSegments(segs: seq<string>)
    ensures Decode(EncodePath(segs)).Segments?
    ensures |Decode(EncodePath(segs)).segs| == |segs|
    ensures forall i :: 0 <= i < |segs| ==> Decode(EncodePath(segs)).segs[i] == ReplaceTildePair(segs[i], '1', '/')
  {
    if segs != [] {
      TokensOfEncodePath(segs);
      var d := UnescapeAll(EscapeAll(segs));
      assert Decode(EncodePath(segs)) == Segments(d);
      forall i | 0 <= i < |segs| ensures d[i] == ReplaceTildePair(segs[i], '1', '/') {
        UnescapeOfEscape(segs[i]);
      }
    }
  }

  /** The round trip through the two exported functions: the pointer built
      from an array of strings decodes to those strings exactly when none of
      them holds `~1`. */
  lemma PathFromPointerOfPathToPointer(path: Value)
    requires PathToPointer(path).Ok?
    ensures PathFromPointer(Str(PathToPointer(path).value)) == Ok(Segments(Strings(path.elems).value)) <==>
            forall i :: 0 <= i < |path.elems| ==> !HasTildeOne(path.elems[i].s)
  {
    var segs := Strings(path.elems).value;
    DecodeEncodePath(segs);
    assert forall i :: 0 <= i < |path.elems| ==> path.elems[i].s == segs[i];
  }

  /** A concrete path the codec as written does not give back: `["a~1b"]` is
      encoded as `#/a~01b` and decoded as `["a/b"]`. */
  lemma DecodeEncodeTildeOneCounterexample(s: string)
    requires s == "a~1b"
    ensures EncodePath([s]) == "#/a~01b"
    ensures Decode(EncodePath([s])) == Segments(["a/b"])
  {
    var t := EscapeTildeOneExample(s);
    assert EscapeAll([s]) == [t];
    TokensOfEncodePath([s]);
    UnescapeTildeOneExample(t);
    assert UnescapeAll([t]) == ["a/b"];
  }

  lemma EscapeTildeOneExample(s: string) returns (t: string)
    requires s == "a~1b"
    ensures t == "a~01b" && Escape(s) == t
  {
    t := "a~01b";
    var tail := s[2..];
    assert s == "a" + ("~" + tail);
    EscapeTildesIdentity(tail);
    assert EscapeTildes("~" + tail) == "~0" + tail by { assert ("~" + tail)[1..] == tail; }
    assert EscapeTildes(s) == "a" + EscapeTildes("~" + tail) by { assert s[1..] == "~" + tail; }
    assert EscapeTildes(s) == t;
    EscapeSlashesIdentity(t);
  }

  lemma ReplaceTildePairIdentity(s: string, d: char, c: char)
    requires '~' !in s
    ensures ReplaceTildePair(s, d, c) == s
  {
    if |s| > 0 {
      assert s == [s[0]] + s[1..];
      ReplaceTildePairIdentity(s[1..], d, c);
    }
  }

  lemma UnescapeTildeOneExample(t: string)
    requires t == "a~01b"
    ensures Unescape(t) == "a/b"
  {
    var mid := t[3..];
    var tail := t[4..];
    assert t == ['a'] + (['~', '0'] + mid);
    ReplaceTildePairIdentity(mid, '0', '~');
    ReplaceMatch(mid, '0', '~');
    ReplaceOther('a', ['~', '0'] + mid, '0', '~');
    var u := ['a'] + (['~'] + mid);
    assert ReplaceTildePair(t, '0', '~') == u;
    assert u == ['a'] + (['~', '1'] + tail);
    ReplaceTildePairIdentity(tail, '1', '/');
    ReplaceMatch(tail, '1', '/');
    ReplaceOther('a', ['~', '1'] + tail, '1', '/');
    assert ReplaceTildePair(u, '1', '/') == ['a'] + (['/'] + tail);
  }

  /** With the unescaping order of RFC 6901 every path comes back unchanged. */
  lemma DecodeRfcEncodePath(segs: seq<string>)
    ensures DecodeRfc(EncodePath(segs)) == Segments(segs)
  {
    if segs != [] {
      TokensOfEncodePath(segs);
      var d := UnescapeAllRfc(EscapeAll(segs));
      forall i | 0 <= i < |segs| ensures d[i] == segs[i] {
        SegmentRoundTripRfc(segs[i]);
      }
    }
  }

  /** Distinct paths have distinct pointers, so a pointer names one location. */
  lemma EncodePathInjective(p: seq<string>, q: seq<string>)
    requires EncodePath(p) == EncodePath(q)
    ensures p == q
  {
    DecodeRfcEncodePath(p);
    DecodeRfcEncodePath(q);
  }

  lemma EscapeTildesIdentity(s: string)
    requires '~' !in s
    ensures EscapeTildes(s) == s
  {
  }

  lemma EscapeSlashesIdentity(s: string)
    requires '/' !in s
    ensures EscapeSlashes(s) == s
  {
  }

  /** A segment with neither `~` nor `/` is its own escaping. */
  lemma EscapePlain(x: string)
    requires '~' !in x && '/' !in x
    ensures Escape(x) == x
  {
    EscapeTildesIdentity(x);
    EscapeSlashesIdentity(x);
  }

  /** A segment that starts with `/` and holds neither character after it. */
  lemma EscapeOfSlashCons(x: string)
    requires '~' !in x && '/' !in x
    ensures Escape("/" + x) == "~1" + x
  {
    var s := "/" + x;
    assert s[1..] == x;
    EscapeTildesIdentity(s);
    assert EscapeSlashes(s) == "~1" + EscapeSlashes(x);
    EscapeSlashesIdentity(x);
  }

  /** A segment that starts with `~` and holds neither character after it. */
  lemma EscapeOfTildeCons(x: string)
    requires '~' !in x && '/' !in x
    ensures Escape("~" + x) == "~0" + x
  {
    var s := "~" + x;
    assert s[1..] == x;
    EscapeTildesIdentity(x);
    assert EscapeTildes(s) == "~0" + x;
    EscapeSlashesIdentity("~0" + x);
  }

  lemma EncodePathOfThree(a: string, b: string, c: string)
    ensures EncodePath([a, b, c]) == "#/" + (Escape(a) + "/" + (Escape(b) + "/" + Escape(c)))
  {
    var e := EscapeAll([a, b, c]);
    assert e == [Escape(a), Escape(b), Escape(c)];
    JoinOfThree(Escape(a), Escape(b), Escape(c));
  }

  lemma JoinOfThree(x: string, y: string, z: string)
    ensures Join([x, y, z]) == x + "/" + (y + "/" + z)
  {
    assert [x, y, z][1..] == [y, z];
    assert [y, z][1..] == [z];
    assert Join([z]) == z;
    assert Join([y, z]) == y + "/" + z;
    assert Join([x, y, z]) == x + "/" + Join([y, z]);
  }

  /** The pointer for `['paths', '/pets', '~{name}']`. */
  lemma EncodePathExample(a: string, b: string, c: string)
    requires a == "paths" && b == "/pets" && c == "~{name}"
    ensures EncodePath([a, b, c]) == "#/paths/~1pets/~0{name}"
  {
    EncodePathOfThree(a, b, c);
    EscapedSegmentsExample(a, b, c);
    PointerTextExample();
  }

  lemma EscapedSegmentsExample(a: string, b: string, c: string)
    requires a == "paths" && b == "/pets" && c == "~{name}"
    ensures Escape(a) == "paths" && Escape(b) == "~1pets" && Escape(c) == "~0{name}"
  {
    EscapePlain(a);
    assert b == "/" + b[1..];
    EscapeOfSlashCons(b[1..]);
    assert c == "~" + c[1..];
    EscapeOfTildeCons(c[1..]);
  }

  lemma PointerTextExample()
    ensures "#/" + ("paths" + "/" + ("~1pets" + "/" + "~0{name}")) == "#/paths/~1pets/~0{name}"
  {
  }
}

=== FILE: RefScan.dfy ===
/**
 * `findRefs` of the browser build: a pre-order traversal of the document,
 * reduced into an object that maps the pointer of every `$ref` member whose
 * parent is a JSON Reference to that member's string.
 */
module RefScan {
  import opened Json
  import opened Pointer

  /** One node the traversal library visits: its path from the root, the node,
      and its parent (none for the root). */
  datatype Visit = Visit(path: seq<string>, node: Value, parent: Option<Value>)

  function ChildCount(node: Value): nat {
    match node
    case Arr(a) => |a|
    case Obj(fs) => |fs|
    case _ => 0
  }

  /** The key and value of the `i`th child of an object or array; array
      elements are keyed by their index as a decimal string. */
  function ChildKey(node: Value, i: nat): string
    requires i < ChildCount(node)
  {
    if node.Arr? then DecimalString(i) else node.fields[i].key
  }

  function Child(node: Value, i: nat): (c: Value)
    requires i < ChildCount(node)
    ensures c < node
  {
    if node.Arr? then node.elems[i] else node.fields[i].value
  }

  /** The nodes visited from `node` on, in pre-order: the node, then the
      subtrees of its children in order. Only objects and arrays have children. */
  function Visits(node: Value, path: seq<string>, parent: Option<Value>): (vs: seq<Visit>)
    ensures |vs| > 0 && vs[0] == Visit(path, node, parent)
    decreases node, 1, 0
  {
    [Visit(path, node, parent)] + ChildVisits(node, path, 0)
  }

  /** The visits of the subtrees of the children of `node` from the `i`th on. */
  function ChildVisits(node: Value, path: seq<string>, i: nat): seq<Visit>
    requires i <= ChildCount(node)
    decreases node, 0, ChildCount(node) - i
  {
    if i == ChildCount(node) then []
    else Visits(Child(node, i), path + [ChildKey(node, i)], Some(node)) + ChildVisits(node, path, i + 1)
  }

  /** The reduce callback's test: the node is the `$ref` member of a JSON Reference. */
  predicate IsRefVisit(v: Visit) {
    |v.path| > 0 && v.path[|v.path| - 1] == "$ref" && v.parent.Some? && IsJsonReference(v.parent.value)
  }

  /** The accumulator after the callback has seen `vs`: `acc[pathToPointer(path)] = node`
      for each reference visit. */
  function Collect(vs: seq<Visit>): (acc: seq<Field>)
    ensures DistinctKeys(acc)
  {
    if |vs| == 0 then []
    else
      var acc := Collect(vs[..|vs| - 1]);
      var v := vs[|vs| - 1];
      if IsRefVisit(v) then
        PutKeepsDistinct(acc, EncodePath(v.path), v.node);
        Put(acc, EncodePath(v.path), v.node)
      else acc
  }

  /** The members of the object `findRefs(doc)` returns. */
  function RefsOf(doc: Value): (refs: seq<Field>)
    ensures DistinctKeys(refs)
  {
    Collect(Visits(doc, [], None))
  }

  /** `findRefs(json)`: the argument checks, then the reduce over the traversal. */
  method FindRefs(json: Value) returns (r: Result<seq<Field>>)
    ensures json.Undefined? ==> r == Err(Error("json is required"))
    ensures !json.Undefined? && !IsPlainObject(json) ==> r == Err(Error("json must be an object"))
    ensures IsPlainObject(json) ==> r == Ok(RefsOf(json))
  {
    if json.Undefined? {
      return Err(Error("json is required"));
    }
    if !IsPlainObject(json) {
      return Err(Error("json must be an object"));
    }
    var visits := Visits(json, [], None);
    var acc: seq<Field> := [];
    for k := 0 to |visits|
      invariant acc == Collect(visits[..k])
    {
      assert visits[..k + 1][..k] == visits[..k];
      var v := visits[k];
      if IsRefVisit(v) {
        acc := Put(acc, EncodePath(v.path), v.node);
      }
    }
    assert visits[..|visits|] == visits;
    return Ok(acc);
  }

  // ---------------------------------------------------------------------------
  // What the visits are

  /** A visit names a real location: the node is the value at its path and the
      parent the value one segment up. */
  ghost predicate VisitFits(doc: Value, v: Visit) {
    && Get(doc, v.path) == Some(v.node)
    && (v.parent.Some? ==> |v.path| > 0 && Get(doc, v.path[..|v.path| - 1]) == v.parent)
  }

  lemma ChildAt(node: Value, i: nat)
    requires i < ChildCount(node)
    requires WellFormed(node)
    ensures Member(node, ChildKey(node, i)) == Some(Child(node, i))
    ensures WellFormed(Child(node, i))
  {
    if node.Arr? {
      ArrayIndexOfDecimal(i);
    } else {
      LookupAt(node.fields, i);
    }
  }

  lemma {:induction false} VisitsFit(doc: Value, node: Value, q: seq<string>, par: Option<Value>)
    requires WellFormed(node)
    requires Get(doc, q) == Some(node)
    requires par.Some? ==> |q| > 0 && Get(doc, q[..|q| - 1]) == par
    ensures forall v :: v in Visits(node, q, par) ==> VisitFits(doc, v)
    decreases node, 1
  {
    ChildVisitsFit(doc, node, q, 0);
  }

  lemma {:induction false} ChildVisitsFit(doc: Value, node: Value, q: seq<string>, i: nat)
    requires WellFormed(node)
    requires Get(doc, q) == Some(node)
    requires i <= ChildCount(node)
    ensures forall v :: v in ChildVisits(node, q, i) ==> VisitFits(doc, v)
    decreases node, 0, ChildCount(node) - i
  {
    if i < ChildCount(node) {
      var k := ChildKey(node, i);
      var c := Child(node, i);
      ChildAt(node, i);
      GetAppend(doc, q, [k]);
      assert (q + [k])[..|q + [k]| - 1] == q;
      VisitsFit(doc, c, q + [k], Some(node));
      ChildVisitsFit(doc, node, q, i + 1);
    }
  }

  lemma {:induction false} ChildVisitsInclude(node: Value, q: seq<string>, i: nat, j: nat)
    requires i <= j < ChildCount(node)
    ensures forall v :: v in Visits(Child(node, j), q + [ChildKey(node, j)], Some(node)) ==> v in ChildVisits(node, q, i)
    decreases j - i
  {
    if i < j {
      ChildVisitsInclude(node, q, i + 1, j);
    }
  }

  /** The child of an object or array that `obj[key]` reads. */
  lemma ChildOfMember(node: Value, k: string) returns (j: nat)
    requires Member(node, k).Some?
    ensures j < ChildCount(node) && ChildKey(node, j) == k && Child(node, j) == Member(node, k).value
  {
    if node.Arr? {
      j := ArrayIndex(k).value;
      DecimalOfDigits(k);
    } else {
      var c := Member(node, k).value;
      j :| 0 <= j < |node.fields| && node.fields[j] == Field(k, c);
    }
  }

  lemma GetParent(node: Value, p: seq<string>)
    requires |p| > 1 && Member(node, p[0]).Some?
    ensures Get(node, p[..|p| - 1]) == Get(Member(node, p[0]).value, p[1..][..|p| - 2])
  {
    assert p[..|p| - 1][0] == p[0];
    assert p[..|p| - 1][1..] == p[1..][..|p| - 2];
  }

  /** Every location of the document is visited, with its parent. */
  lemma {:induction false} VisitAt(node: Value, q: seq<string>, par: Option<Value>, p: seq<string>) returns (v: Visit)
    requires Get(node, p).Some?
    ensures v in Visits(node, q, par) && v.path == q + p && v.node == Get(node, p).value
    ensures |p| == 0 ==> v.parent == par
    ensures |p| > 0 ==> v.parent == Get(node, p[..|p| - 1])
    decreases node
  {
    if |p| == 0 {
      assert q + p == q;
      v := Visits(node, q, par)[0];
    } else {
      var c := Member(node, p[0]).value;
      assert Get(node, p) == Get(c, p[1..]);
      v := VisitAt(c, q + [p[0]], Some(node), p[1..]);
      VisitOfChild(node, q, par, p, v);
    }
  }

  /** A visit found in the subtree of the member `p[0]` is a visit of `node`. */
  lemma VisitOfChild(node: Value, q: seq<string>, par: Option<Value>, p: seq<string>, v: Visit)
    requires |p| > 0 && Member(node, p[0]).Some?
    requires v in Visits(Member(node, p[0]).value, q + [p[0]], Some(node)) && v.path == q + [p[0]] + p[1..]
    requires |p| == 1 ==> v.parent == Some(node)
    requires |p| > 1 ==> v.parent == Get(Member(node, p[0]).value, p[1..][..|p[1..]| - 1])
    ensures v in Visits(node, q, par) && v.path == q + p
    ensures v.parent == Get(node, p[..|p| - 1])
  {
    var j := ChildOfMember(node, p[0]);
    VisitInChild(node, q, par, j, v);
    assert q + [p[0]] + p[1..] == q + p;
    ParentOfChildVisit(node, p, v.parent);
  }

  lemma VisitInChild(node: Value, q: seq<string>, par: Option<Value>, j: nat, v: Visit)
    requires j < ChildCount(node) && v in Visits(Child(node, j), q + [ChildKey(node, j)], Some(node))
    ensures v in Visits(node, q, par)
  {
    ChildVisitsInclude(node, q, 0, j);
    assert v in ChildVisits(node, q, 0);
    assert Visits(node, q, par) == [Visit(q, node, par)] + ChildVisits(node, q, 0);
  }

  lemma ParentOfChildVisit(node: Value, p: seq<string>, parent: Option<Value>)
    requires |p| > 0 && Member(node, p[0]).Some?
    requires |p| == 1 ==> parent == Some(node)
    requires |p| > 1 ==> parent == Get(Member(node, p[0]).value, p[1..][..|p[1..]| - 1])
    ensures parent == Get(node, p[..|p| - 1])
  {
    if |p| > 1 {
      GetParent(node, p);
    } else {
      assert p[..|p| - 1] == [];
    }
  }

  // ---------------------------------------------------------------------------
  // What the reduce keeps

  lemma {:induction false} CollectSound(vs: seq<Visit>, ptr: string, x: Value) returns (v: Visit)
    requires Lookup(Collect(vs), ptr) == Some(x)
    ensures v in vs && IsRefVisit(v) && ptr == EncodePath(v.path) && x == v.node
  {
    assert |vs| > 0;
    var init := vs[..|vs| - 1];
    var last := vs[|vs| - 1];
    assert vs == init + [last];
    if IsRefVisit(last) && ptr == EncodePath(last.path) {
      v := last;
    } else {
      assert Lookup(Collect(vs), ptr) == Lookup(Collect(init), ptr);
      v := CollectSound(init, ptr, x);
    }
  }

  lemma {:induction false} CollectComplete(vs: seq<Visit>, v: Visit)
    requires v in vs && IsRefVisit(v)
    ensures Lookup(Collect(vs), EncodePath(v.path)).Some?
  {
    var init := vs[..|vs| - 1];
    var last := vs[|vs| - 1];
    if v != last || !IsRefVisit(last) {
      assert v in init by { assert vs == init + [last]; }
      CollectComplete(init, v);
    }
  }

  // ---------------------------------------------------------------------------
  // What findRefs finds

  /** The document holds a JSON Reference at `p`. */
  ghost predicate ReferenceAt(doc: Value, p: seq<string>) {
    Get(doc, p).Some? && IsJsonReference(Get(doc, p).value)
  }

  /** Every entry of `findRefs` is the pointer to the `$ref` member of a JSON
      Reference in the document, with that member's string. */
  lemma FindRefsSound(doc: Value, ptr: string, x: Value)
    requires WellFormed(doc)
    requires Lookup(RefsOf(doc), ptr) == Some(x)
    ensures exists p :: ReferenceAt(doc, p) && ptr == EncodePath(p + ["$ref"]) &&
                        Lookup(Get(doc, p).value.fields, "$ref") == Some(x)
  {
    var v := CollectSound(Visits(doc, [], None), ptr, x);
    VisitsFit(doc, doc, [], None);
    var p := RefVisitIsReference(doc, v);
  }

  /** A visit the callback keeps is the `$ref` member of a reference at its parent's path. */
  lemma RefVisitIsReference(doc: Value, v: Visit) returns (p: seq<string>)
    requires VisitFits(doc, v) && IsRefVisit(v)
    ensures ReferenceAt(doc, p) && v.path == p + ["$ref"]
    ensures Lookup(Get(doc, p).value.fields, "$ref") == Some(v.node)
  {
    p := v.path[..|v.path| - 1];
    var o := v.parent.value;
    assert v.path == p + ["$ref"];
    assert Get(doc, p) == Some(o);
    GetAppend(doc, p, ["$ref"]);
    GetMember(o, "$ref");
  }

  lemma GetMember(v: Value, key: string)
    ensures Get(v, [key]) == Member(v, key)
  {
    assert [key][1..] == [];
  }

  /** Every JSON Reference in the document has its entry in `findRefs`, under the
      pointer to its `$ref` member. */
  lemma FindRefsComplete(doc: Value, p: seq<string>)
    requires WellFormed(doc)
    requires ReferenceAt(doc, p)
    ensures Lookup(RefsOf(doc), EncodePath(p + ["$ref"])) == Lookup(Get(doc, p).value.fields, "$ref")
  {
    var o := Get(doc, p).value;
    var path := p + ["$ref"];
    GetAppend(doc, p, ["$ref"]);
    var v := VisitAt(doc, [], None, path);
    assert [] + path == path;
    assert path[..|path| - 1] == p;
    assert IsRefVisit(v);
    CollectComplete(Visits(doc, [], None), v);
    var x := Lookup(RefsOf(doc), EncodePath(path)).value;
    FindRefsSound(doc, EncodePath(path), x);
    var p' :| ReferenceAt(doc, p') && EncodePath(path) == EncodePath(p' + ["$ref"]) &&
              Lookup(Get(doc, p').value.fields, "$ref") == Some(x);
    EncodePathInjective(path, p' + ["$ref"]);
    assert p' == (p' + ["$ref"])[..|p'|];
  }

  /** `findRefs` returns an empty object exactly for documents without references. */
  lemma FindRefsEmpty(doc: Value)
    requires WellFormed(doc)
    ensures RefsOf(doc) == [] <==> forall p :: !ReferenceAt(doc, p)
  {
    if RefsOf(doc) != [] {
      var f := RefsOf(doc)[0];
      assert Keys(RefsOf(doc))[0] == f.key;
      FindRefsSound(doc, f.key, Lookup(RefsOf(doc), f.key).value);
    }
    if exists p :: ReferenceAt(doc, p) {
      var p :| ReferenceAt(doc, p);
      FindRefsComplete(doc, p);
    }
  }
}

=== FILE: RefUtils.dfy ===
/**
 * The helpers of the `RefUtils` class in lib/utils.js: classifying reference
 * details, shape checks, path lookup and update on a document, the ancestors
 * of a path, the depth-first walk with its shared path and ancestor stack,
 * the configurable reference filter, and the remote-document cache.
 *
 * `decodeURI` is taken to be the identity on path segments, and `pathToPtr`
 * the encoding of the browser build (`Pointer.EncodePath`). The names the file
 * uses without defining them (`this.decodeURI`, `pathToPtr`, the free
 * `findValue` and `walk`, `remoteCache`, `this.refFilter`) are read as their
 * evident intent; the `AsWritten` members model what the code does instead.
 */
module RefUtils {
  import opened Json
  import Pointer
  import RefScan

  // ---------------------------------------------------------------------------
  // Reference details

  /** The fields of a reference-details record the helpers read and write:
      the URI kind of `uriDetails.reference`, `type` (here `refType`), `error`
      and `missing`. */
  datatype RefDetails = RefDetails(uriReference: string, refType: string, error: Option<string>, missing: bool)

  /** `getRefType`: absolute URIs and URIs are remote, same-document ones local;
      every other kind passes through. */
  function GetRefType(d: RefDetails): (t: string)
    ensures t != "absolute" && t != "uri" && t != "same-document"
    ensures d.uriReference == "absolute" || d.uriReference == "uri" ==> t == "remote"
    ensures d.uriReference == "same-document" ==> t == "local"
    ensures d.uriReference !in {"absolute", "uri", "same-document"} ==> t == d.uriReference
  {
    if d.uriReference == "absolute" || d.uriReference == "uri" then "remote"
    else if d.uriReference == "same-document" then "local"
    else d.uriReference
  }

  /** Classifying an already classified kind changes nothing. */
  lemma GetRefTypeIdempotent(d: RefDetails)
    ensures GetRefType(d.(uriReference := GetRefType(d))) == GetRefType(d)
  {
  }

  /** `isRemote`: the type is `relative` or `remote`, which holds exactly for
      the URI kinds that make a reference remote. */
  predicate IsRemote(d: RefDetails): (b: bool)
    ensures b <==> d.uriReference in {"absolute", "uri", "relative", "remote"}
  {
    GetRefType(d) == "relative" || GetRefType(d) == "remote"
  }

  /** `isValid`: no error and a type other than `invalid`. */
  predicate IsValid(d: RefDetails): (b: bool)
    ensures b ==> d.refType != "invalid"
  {
    d.error.None? && d.refType != "invalid"
  }

  /** A reference-details object, updated in place by `markMissing`. */
  class RefRecord {
    var uriReference: string
    var refType: string
    var error: Option<string>
    var missing: bool

    constructor (d: RefDetails)
      ensures Details() == d
    {
      uriReference := d.uriReference;
      refType := d.refType;
      error := d.error;
      missing := d.missing;
    }

    function Details(): RefDetails
      reads this
    {
      RefDetails(uriReference, refType, error, missing)
    }

    /** `markMissing(refDetails, err)`: records the error's message and the
        missing flag; the reference is no longer valid and keeps its type. */
    method MarkMissing(err: Error)
      modifies this
      ensures Details() == old(Details()).(error := Some(err.message), missing := true)
      ensures !IsValid(Details())
      ensures GetRefType(Details()) == GetRefType(old(Details()))
    {
      error := Some(err.message);
      missing := true;
    }
  }

  // ---------------------------------------------------------------------------
  // Shape checks

  /** JavaScript truthiness. */
  predicate Truthy(v: Value) {
    match v
    case Undefined => false
    case Null => false
    case Bool(b) => b
    case Num(n) => n != 0
    case Str(s) => |s| > 0
    case _ => true
  }

  /** `isRefLike(obj, throwWithDetails)`: whether `obj` is a plain object with a
      string `$ref`; with a truthy second argument the failed check is thrown. */
  function IsRefLike(obj: Value, throwWithDetails: Value): (r: Result<bool>)
    ensures r == Ok(true) <==> Pointer.IsJsonReference(obj)
    ensures !Truthy(throwWithDetails) ==> r == Ok(Pointer.IsJsonReference(obj))
    ensures r.Err? ==> Truthy(throwWithDetails) && !Pointer.IsJsonReference(obj)
    ensures Truthy(throwWithDetails) && !obj.Obj? ==> r == Err(Error("obj is not an Object"))
    ensures Truthy(throwWithDetails) && obj.Obj? && !Pointer.IsJsonReference(obj) ==> r == Err(Error("obj.$ref is not a String"))
  {
    var failure :=
      if !IsPlainObject(obj) then Some(Error("obj is not an Object"))
      else if !(Lookup(obj.fields, "$ref").Some? && Lookup(obj.fields, "$ref").value.Str?) then Some(Error("obj.$ref is not a String"))
      else None;
    if failure.None? then Ok(true)
    else if Truthy(throwWithDetails) then Err(failure.value)
    else Ok(false)
  }

  /** The index keys `0`, `1`, ... of an array or string of length `n`. */
  function IndexKeys(n: nat): (ks: seq<string>)
    ensures |ks| == n && forall i :: 0 <= i < n ==> ks[i] == DecimalString(i)
  {
    seq(n, i requires 0 <= i < n => DecimalString(i))
  }

  /** `Object.keys(v)`. */
  function ObjectKeys(v: Value): Result<seq<string>> {
    match v
    case Obj(fs) => Ok(Keys(fs))
    case Arr(a) => Ok(IndexKeys(|a|))
    case Str(s) => Ok(IndexKeys(|s|))
    case Undefined => Err(TypeError("Cannot convert undefined or null to object"))
    case Null => Err(TypeError("Cannot convert undefined or null to object"))
    case _ => Ok([])
  }

  /** `keys.filter(key => key !== x)`. */
  function Without(keys: seq<string>, x: string): (r: seq<string>)
    ensures x !in r
    ensures forall k :: k in r <==> k in keys && k != x
    ensures |r| <= |keys|
  {
    if |keys| == 0 then []
    else (if keys[0] == x then [] else [keys[0]]) + Without(keys[1..], x)
  }

  /** `getExtraRefKeys(ref)`: the own keys other than `$ref`. */
  function GetExtraRefKeys(ref: Value): (r: Result<seq<string>>)
    ensures r.Err? <==> ref.Undefined? || ref.Null?
    ensures r.Ok? ==> "$ref" !in r.value
    ensures ref.Obj? ==> r.Ok? && forall k :: k in r.value <==> k in Keys(ref.fields) && k != "$ref"
  {
    match ObjectKeys(ref)
    case Ok(ks) => Ok(Without(ks, "$ref"))
    case Err(e) => Err(e)
  }

  lemma {:induction false} WithoutPresent(keys: seq<string>, x: string)
    requires x in keys
    requires forall i, j :: 0 <= i < j < |keys| ==> keys[i] != keys[j]
    ensures |Without(keys, x)| == |keys| - 1
  {
    if keys[0] != x {
      assert x in keys[1..];
      WithoutPresent(keys[1..], x);
    } else {
      WithoutAbsent(keys[1..], x);
    }
  }

  lemma {:induction false} WithoutAbsent(keys: seq<string>, x: string)
    requires x !in keys
    ensures Without(keys, x) == keys
  {
    if |keys| > 0 {
      WithoutAbsent(keys[1..], x);
    }
  }

  /** A JSON Reference has exactly one key fewer among its extra keys. */
  lemma ExtraKeysOfReference(ref: Value)
    requires WellFormed(ref) && Pointer.IsJsonReference(ref)
    ensures GetExtraRefKeys(ref).Ok? && |GetExtraRefKeys(ref).value| == |ref.fields| - 1
  {
    var ks := Keys(ref.fields);
    KeysAt(ref.fields);
    assert forall i, j :: 0 <= i < j < |ks| ==> ks[i] != ks[j];
    WithoutPresent(ks, "$ref");
  }

  // ---------------------------------------------------------------------------
  // Following a path

  /** `undefined`, `null`, booleans, numbers and strings. */
  predicate Primitive(v: Value) {
    v.Undefined? || v.Null? || v.Bool? || v.Num? || v.Str?
  }

  /** The names every object inherits from `Object.prototype`. */
  const ObjectPrototypeNames: set<string> :=
    {"constructor", "hasOwnProperty", "isPrototypeOf", "propertyIsEnumerable", "toLocaleString",
     "toString", "valueOf", "__proto__", "__defineGetter__", "__defineSetter__",
     "__lookupGetter__", "__lookupSetter__"}

  /** The names arrays inherit from `Array.prototype` besides those. */
  const ArrayPrototypeNames: set<string> :=
    {"at", "concat", "copyWithin", "entries", "every", "fill", "filter", "find", "findIndex",
     "findLast", "findLastIndex", "flat", "flatMap", "forEach", "includes", "indexOf", "join",
     "keys", "lastIndexOf", "map", "pop", "push", "reduce", "reduceRight", "reverse", "shift",
     "slice", "some", "sort", "splice", "toReversed", "toSorted", "toSpliced", "unshift",
     "values", "with"}

  /** `key in node` holds for a name the value model does not represent as a
      member: an inherited method or accessor, or the `length` of an array. */
  predicate Inherited(node: Value, key: string) {
    && Member(node, key).None?
    && ((node.Obj? && key in ObjectPrototypeNames) ||
        (node.Arr? && (key == "length" || key in ObjectPrototypeNames || key in ArrayPrototypeNames)))
  }

  /** The `in` operator: true for the own members of objects and arrays, false
      for other names, a TypeError on primitives. Inherited names, for which
      `in` is true but whose values are functions or lengths outside the value
      model, are reported as unmodelled. */
  function In(node: Value, key: string): (r: Result<bool>)
    ensures r.Ok? ==> (r.value <==> Member(node, key).Some?)
    ensures r.Ok? <==> (node.Obj? || node.Arr?) && !Inherited(node, key)
    ensures Primitive(node) ==> r.Err? && r.error.TypeError?
    ensures Inherited(node, key) || node.Fn? ==> r.Err? && r.error.Unmodelled?
  {
    match node
    case Obj(_) => if Inherited(node, key) then Err(Unmodelled("'" + key + "' is inherited")) else Ok(Member(node, key).Some?)
    case Arr(_) => if Inherited(node, key) then Err(Unmodelled("'" + key + "' is inherited")) else Ok(Member(node, key).Some?)
    case Fn(_) => Err(Unmodelled("'in' on a function"))
    case _ => Err(TypeError("Cannot use 'in' operator to search for '" + key + "'"))
  }

  function MissingLocation(path: seq<string>): Error {
    Error("JSON Pointer points to missing location: " + Pointer.EncodePath(path))
  }

  /** What `findValue(obj, path)` does from segment `i` on, at `node`. */
  function FindValueFrom(node: Value, path: seq<string>, i: nat): Result<Value>
    requires i <= |path|
    decreases |path| - i
  {
    if i == |path| then Ok(node)
    else
      match In(node, path[i])
      case Err(e) => Err(e)
      case Ok(found) =>
        if found then FindValueFrom(Member(node, path[i]).value, path, i + 1)
        else Err(MissingLocation(path))
  }

  /** The lookup succeeds exactly where the path names a location, with its
      value; it fails with the missing-location error or a runtime error. */
  lemma {:induction false} FindValueFromGet(node: Value, path: seq<string>, i: nat)
    requires i <= |path|
    ensures FindValueFrom(node, path, i).Ok? <==> Get(node, path[i..]).Some?
    ensures FindValueFrom(node, path, i).Ok? ==> FindValueFrom(node, path, i).value == Get(node, path[i..]).value
    ensures FindValueFrom(node, path, i).Err? ==>
              FindValueFrom(node, path, i).error == MissingLocation(path) ||
              FindValueFrom(node, path, i).error.TypeError? || FindValueFrom(node, path, i).error.Unmodelled?
    decreases |path| - i
  {
    if i < |path| {
      assert path[i..][0] == path[i] && path[i..][1..] == path[i + 1..];
      if Member(node, path[i]).Some? {
        FindValueFromGet(Member(node, path[i]).value, path, i + 1);
      }
    }
  }

  /** Once the segments before `k` are found, the lookup goes on from the
      value they reach. */
  lemma {:induction false} FindValueFromPrefix(node: Value, path: seq<string>, i: nat, k: nat)
    requires i <= k <= |path| && Get(node, path[i..k]).Some?
    ensures FindValueFrom(node, path, i) == FindValueFrom(Get(node, path[i..k]).value, path, k)
    decreases k - i
  {
    if i < k {
      assert path[i..k][0] == path[i] && path[i..k][1..] == path[i + 1..k];
      FindValueFromPrefix(Member(node, path[i]).value, path, i + 1, k);
    }
  }

  /** Where the lookup stops: at the first segment `k` that is not an own
      member of the value reached. On an object or an array that is the
      missing-location error; on a primitive, the TypeError of `in`. */
  lemma FindValueStops(obj: Value, path: seq<string>, k: nat)
    requires k < |path| && Get(obj, path[..k]).Some? && Member(Get(obj, path[..k]).value, path[k]).None?
    ensures (Get(obj, path[..k]).value.Obj? || Get(obj, path[..k]).value.Arr?) && !Inherited(Get(obj, path[..k]).value, path[k]) ==>
              FindValueFrom(obj, path, 0) == Err(MissingLocation(path))
    ensures Primitive(Get(obj, path[..k]).value) ==>
              FindValueFrom(obj, path, 0).Err? && FindValueFrom(obj, path, 0).error.TypeError?
  {
    assert path[0..k] == path[..k];
    FindValueFromPrefix(obj, path, 0, k);
  }

  /** What `FindValue` promises, stated of the walk it performs. */
  lemma FindValueFromMeets(obj: Value, path: seq<string>)
    ensures |path| == 0 ==> FindValueFrom(obj, path, 0) == Ok(obj)
    ensures FindValueFrom(obj, path, 0).Ok? <==> Get(obj, path).Some?
    ensures FindValueFrom(obj, path, 0).Ok? ==> FindValueFrom(obj, path, 0).value == Get(obj, path).value
    ensures FindValueFrom(obj, path, 0).Err? ==>
              FindValueFrom(obj, path, 0).error == MissingLocation(path) ||
              FindValueFrom(obj, path, 0).error.TypeError? || FindValueFrom(obj, path, 0).error.Unmodelled?
    ensures forall k :: 0 <= k < |path| && Get(obj, path[..k]).Some? && Member(Get(obj, path[..k]).value, path[k]).None? ==>
              ((Get(obj, path[..k]).value.Obj? || Get(obj, path[..k]).value.Arr?) && !Inherited(Get(obj, path[..k]).value, path[k]) ==>
                 FindValueFrom(obj, path, 0) == Err(MissingLocation(path))) &&
              (Primitive(Get(obj, path[..k]).value) ==> FindValueFrom(obj, path, 0).Err? && FindValueFrom(obj, path, 0).error.TypeError?)
  {
    FindValueFromGet(obj, path, 0);
    assert path[0..] == path;
    forall k | 0 <= k < |path| && Get(obj, path[..k]).Some? && Member(Get(obj, path[..k]).value, path[k]).None?
      ensures ((Get(obj, path[..k]).value.Obj? || Get(obj, path[..k]).value.Arr?) && !Inherited(Get(obj, path[..k]).value, path[k]) ==>
                 FindValueFrom(obj, path, 0) == Err(MissingLocation(path))) &&
              (Primitive(Get(obj, path[..k]).value) ==> FindValueFrom(obj, path, 0).Err? && FindValueFrom(obj, path, 0).error.TypeError?)
    {
      FindValueStops(obj, path, k);
    }
  }

  /** `findValue(obj, path)`: follows the segments one by one. */
  method FindValue(obj: Value, path: seq<string>) returns (r: Result<Value>)
    ensures |path| == 0 ==> r == Ok(obj)
    ensures r.Ok? <==> Get(obj, path).Some?
    ensures r.Ok? ==> r.value == Get(obj, path).value
    ensures r.Err? ==> r.error == MissingLocation(path) || r.error.TypeError? || r.error.Unmodelled?
    ensures forall k :: 0 <= k < |path| && Get(obj, path[..k]).Some? && Member(Get(obj, path[..k]).value, path[k]).None? ==>
              ((Get(obj, path[..k]).value.Obj? || Get(obj, path[..k]).value.Arr?) && !Inherited(Get(obj, path[..k]).value, path[k]) ==>
                 r == Err(MissingLocation(path))) &&
              (Primitive(Get(obj, path[..k]).value) ==> r.Err? && r.error.TypeError?)
  {
    FindValueFromMeets(obj, path);
    var value := obj;
    for i := 0 to |path|
      invariant FindValueFrom(obj, path, 0) == FindValueFrom(value, path, i)
    {
      var seg := path[i];
      var found := In(value, seg);
      if found.Err? {
        r := Err(found.error);
        assert r == FindValueFrom(obj, path, 0);
        return;
      }
      if found.value {
        value := Member(value, seg).value;
      } else {
        r := Err(MissingLocation(path));
        assert r == FindValueFrom(obj, path, 0);
        return;
      }
    }
    r := Ok(value);
    assert r == FindValueFrom(obj, path, 0);
  }

  /** `findValue` as lib/utils.js writes it: the class defines no `decodeURI`
      method, so the first segment makes `this.decodeURI(seg)` throw a
      TypeError before `in` is tried, and `pathToPtr`, which is bound nowhere
      either, is never reached. Only the empty path yields a value. */
  function FindValueAsWritten(obj: Value, path: seq<string>): (r: Result<Value>)
    ensures r.Ok? <==> |path| == 0
    ensures r.Ok? ==> r == FindValueFrom(obj, path, 0)
    ensures r.Err? ==> r.error.TypeError?
  {
    if |path| == 0 then Ok(obj) else Err(TypeError("this.decodeURI is not a function"))
  }

  /** The member of a one-member object: the lookup as written throws, where
      the evident intent finds the member's value. */
  lemma FindValueAsWrittenThrows(obj: Value, k: string, v: Value)
    requires obj == Obj([Field(k, v)])
    ensures FindValueAsWritten(obj, [k]).Err? && FindValueAsWritten(obj, [k]).error.TypeError?
    ensures FindValueFrom(obj, [k], 0) == Ok(v)
  {
    FindValueFromGet(obj, [k], 0);
    assert [k][0..] == [k];
    assert Member(obj, k) == Some(v);
  }

  /** `setValue(obj, refPath, value)`: assigns `value` under the last segment
      of the object at the other segments (under `"undefined"` for an empty
      path), and returns the updated document. */
  function SetValue(obj: Value, refPath: seq<string>, value: Value): (r: Result<Value>)
    ensures |refPath| > 0 && r.Ok? ==> Get(r.value, refPath) == Some(value)
    ensures Get(obj, ParentOf(refPath)).None? ==> r.Err?
    ensures Get(obj, ParentOf(refPath)).Some? && Get(obj, ParentOf(refPath)).value.Obj? ==> r.Ok?
    ensures (&& Get(obj, ParentOf(refPath)).Some? && Get(obj, ParentOf(refPath)).value.Arr?
             && ArrayIndex(LastKey(refPath)).Some?
             && ArrayIndex(LastKey(refPath)).value <= |Get(obj, ParentOf(refPath)).value.elems|) ==> r.Ok?
    ensures Get(obj, ParentOf(refPath)).Some? && Primitive(Get(obj, ParentOf(refPath)).value) ==> r.Err? && r.error.TypeError?
  {
    var at := ParentOf(refPath);
    FindValueFromGet(obj, at, 0);
    assert at[0..] == at;
    match FindValueFrom(obj, at, 0)
    case Err(e) => Err(e)
    case Ok(parent) =>
      match WriteMember(parent, LastKey(refPath), value)
      case Err(e) => Err(e)
      case Ok(parent') =>
        var r := ReplaceAt(obj, at, parent');
        SetValueLands(r, refPath, parent', value);
        Ok(r)
  }

  /** `setValue` as lib/utils.js writes it: `findValue` is not bound where it
      is called (the method is `this.findValue`), so evaluating the callee
      throws a ReferenceError before any argument is read, whatever the input. */
  function SetValueAsWritten(obj: Value, refPath: seq<string>, value: Value): (r: Result<Value>)
    ensures r.Err? && r.error.ReferenceError?
  {
    Err(ReferenceError("findValue is not defined"))
  }

  /** Assigning a member of an object: the code as written throws, where the
      evident intent succeeds and the member then reads the assigned value. */
  lemma SetValueAsWrittenThrows(obj: Value, k: string, value: Value)
    requires obj.Obj?
    ensures SetValueAsWritten(obj, [k], value).Err?
    ensures SetValue(obj, [k], value).Ok? && Get(SetValue(obj, [k], value).value, [k]) == Some(value)
  {
    assert ParentOf([k]) == [];
  }

  function ParentOf(refPath: seq<string>): seq<string> {
    if |refPath| == 0 then [] else refPath[..|refPath| - 1]
  }

  /** `decodeURI(refPath[refPath.length - 1])`, where an empty path reads `undefined`. */
  function LastKey(refPath: seq<string>): string {
    if |refPath| == 0 then "undefined" else refPath[|refPath| - 1]
  }

  lemma SetValueLands(r: Value, refPath: seq<string>, parent': Value, x: Value)
    requires Get(r, ParentOf(refPath)) == Some(parent')
    requires Member(parent', LastKey(refPath)) == Some(x)
    ensures |refPath| > 0 ==> Get(r, refPath) == Some(x)
  {
    if |refPath| > 0 {
      var at := ParentOf(refPath);
      assert refPath == at + [LastKey(refPath)];
      GetAppend(r, at, [LastKey(refPath)]);
      assert [LastKey(refPath)][1..] == [];
    }
  }

  /** A path disjoint from `refPath` but not from its parent goes through the
      parent to a sibling of the assigned member. */
  lemma BesideTarget(q: seq<string>, refPath: seq<string>)
    requires |refPath| > 0 && Disjoint(q, refPath) && !Disjoint(q, ParentOf(refPath))
    ensures |q| > |ParentOf(refPath)| && q[..|ParentOf(refPath)|] == ParentOf(refPath)
    ensures q[|ParentOf(refPath)|] != LastKey(refPath)
  {
    var at := ParentOf(refPath);
    var i :| 0 <= i < |q| && i < |refPath| && q[i] != refPath[i];
    assert i == |at|;
  }

  /** Replacing the value at `at` by one with the same member `q[|at|]` leaves
      every location through that member unchanged. */
  lemma ReplaceAtBeside(obj: Value, at: seq<string>, parent': Value, q: seq<string>)
    requires Get(obj, at).Some?
    requires |q| > |at| && q[..|at|] == at
    requires Member(parent', q[|at|]) == Member(Get(obj, at).value, q[|at|])
    ensures Get(ReplaceAt(obj, at, parent'), q) == Get(obj, q)
  {
    var rest := q[|at|..];
    assert q == at + rest;
    GetAppend(ReplaceAt(obj, at, parent'), at, rest);
    GetAppend(obj, at, rest);
  }

  /** `setValue` changes nothing outside the assigned location. */
  lemma SetValueFrame(obj: Value, refPath: seq<string>, value: Value, q: seq<string>)
    requires |refPath| > 0 && SetValue(obj, refPath, value).Ok?
    requires Disjoint(q, refPath)
    ensures Get(SetValue(obj, refPath, value).value, q) == Get(obj, q)
  {
    var at := ParentOf(refPath);
    var key := LastKey(refPath);
    FindValueFromGet(obj, at, 0);
    assert at[0..] == at;
    var parent := Get(obj, at).value;
    var parent' := WriteMember(parent, key, value).value;
    var r := SetValue(obj, refPath, value).value;
    assert r == ReplaceAt(obj, at, parent');
    if Disjoint(q, at) {
      ReplaceAtFrame(obj, at, parent', q);
    } else {
      BesideTarget(q, refPath);
      ReplaceAtBeside(obj, at, parent', q);
    }
  }

  // ---------------------------------------------------------------------------
  // Ancestors

  /** The ancestors `findAncestors` collects along `segs` from `node`: each
      segment present under the current node moves to its member and records
      it; a missing one is skipped without moving. */
  function AncestorsFrom(node: Value, segs: seq<string>): (r: Result<seq<Value>>)
    ensures r.Ok? ==> |r.value| <= |segs|
  {
    if |segs| == 0 then Ok([])
    else
      match In(node, segs[0])
      case Err(e) => Err(e)
      case Ok(found) =>
        if found then
          var c := Member(node, segs[0]).value;
          Prepend([c], AncestorsFrom(c, segs[1..]))
        else AncestorsFrom(node, segs[1..])
  }

  /** The ancestors collected so far in front of those still to come. */
  function Prepend(acc: seq<Value>, r: Result<seq<Value>>): (p: Result<seq<Value>>)
    ensures p.Ok? <==> r.Ok?
    ensures p.Ok? ==> |p.value| == |acc| + |r.value|
  {
    match r
    case Ok(rest) => Ok(acc + rest)
    case Err(e) => Err(e)
  }

  lemma PrependAssoc(a: seq<Value>, b: seq<Value>, r: Result<seq<Value>>)
    ensures Prepend(a, Prepend(b, r)) == Prepend(a + b, r)
    ensures Prepend([], r) == r
  {
    if r.Ok? {
      assert a + (b + r.value) == a + b + r.value;
      assert [] + r.value == r.value;
    }
  }

  /** `findAncestors(obj, path)`: the ancestors along every segment but the last. */
  method FindAncestors(obj: Value, path: seq<string>) returns (r: Result<seq<Value>>)
    ensures |path| == 0 ==> r == Ok([])
    ensures |path| > 0 ==> r == AncestorsFrom(obj, path[..|path| - 1])
    ensures r.Ok? ==> |r.value| <= if |path| == 0 then 0 else |path| - 1
  {
    var ancestors: seq<Value> := [];
    if |path| > 0 {
      var segs := path[..|path| - 1];
      var node := obj;
      assert segs[0..] == segs;
      PrependAssoc([], [], AncestorsFrom(obj, segs));
      for i := 0 to |segs|
        invariant AncestorsFrom(obj, segs) == Prepend(ancestors, AncestorsFrom(node, segs[i..]))
      {
        assert segs[i..][0] == segs[i] && segs[i..][1..] == segs[i + 1..];
        var found := In(node, segs[i]);
        if found.Err? {
          return Err(found.error);
        }
        if found.value {
          var c := Member(node, segs[i]).value;
          PrependAssoc(ancestors, [c], AncestorsFrom(c, segs[i + 1..]));
          node := c;
          ancestors := ancestors + [node];
        }
      }
      assert segs[|segs|..] == [];
      assert ancestors + [] == ancestors;
    }
    return Ok(ancestors);
  }

  /** Along a path whose every prefix exists, the ancestors are the values at
      the successive prefixes. */
  lemma {:induction false} AncestorsAlongPath(node: Value, segs: seq<string>)
    requires Get(node, segs).Some?
    ensures AncestorsFrom(node, segs).Ok?
    ensures |AncestorsFrom(node, segs).value| == |segs|
    ensures forall i :: 0 <= i < |segs| ==> Some(AncestorsFrom(node, segs).value[i]) == Get(node, segs[..i + 1])
  {
    if |segs| > 0 {
      var c := Member(node, segs[0]).value;
      AncestorsAlongPath(c, segs[1..]);
      var rest := AncestorsFrom(c, segs[1..]).value;
      var r := AncestorsFrom(node, segs).value;
      assert r == [c] + rest;
      forall i | 0 <= i < |segs| ensures Some(r[i]) == Get(node, segs[..i + 1]) {
        var pre := segs[..i + 1];
        assert pre[0] == segs[0] && pre[1..] == segs[1..][..i];
        if i > 0 {
          assert r[i] == rest[i - 1];
        }
      }
    }
  }

  // ---------------------------------------------------------------------------
  // The walk

  /** What the iteratee `fn` is given at one call: the ancestor stack, the node
      and the path, as they stand at that call. */
  datatype Call = Call(ancestors: seq<Value>, node: Value, path: seq<string>)

  /** The iteratee; `None` when `fn` is not a function. */
  type Iteratee = Option<(seq<Value>, Value, seq<string>) -> Value>

  /** `processChildren`: the iteratee's result, `true` when there is none. */
  function Process(fn: Iteratee, ancestors: seq<Value>, node: Value, path: seq<string>): Value {
    if fn.Some? then fn.value(ancestors, node, path) else Bool(true)
  }

  /** The calls of the iteratee during `walk(ancestors, node, path, fn)`: one on
      the node, then, unless the node is already an ancestor or the iteratee
      returned `false`, those of each child in order, with the node pushed on
      the ancestors and the child's key on the path. */
  function WalkCalls(ancestors: seq<Value>, node: Value, path: seq<string>, fn: Iteratee): seq<Call>
    decreases node, 1, 0
  {
    (if fn.Some? then [Call(ancestors, node, path)] else []) +
    (if node in ancestors || Process(fn, ancestors, node, path) == Bool(false) then []
     else ChildCalls(ancestors + [node], node, path, fn, 0))
  }

  function ChildCalls(ancestors: seq<Value>, node: Value, path: seq<string>, fn: Iteratee, i: nat): seq<Call>
    requires i <= RefScan.ChildCount(node)
    decreases node, 0, RefScan.ChildCount(node) - i
  {
    if i == RefScan.ChildCount(node) then []
    else WalkCalls(ancestors, RefScan.Child(node, i), path + [RefScan.ChildKey(node, i)], fn) + ChildCalls(ancestors, node, path, fn, i + 1)
  }

  /** `walk` over its shared, mutable `ancestors` and `path` arrays; `calls`
      records what the iteratee saw. */
  class Walker {
    var ancestors: seq<Value>
    var path: seq<string>
    var calls: seq<Call>

    constructor (ancestors: seq<Value>, path: seq<string>)
      ensures this.ancestors == ancestors && this.path == path && calls == []
    {
      this.ancestors := ancestors;
      this.path := path;
      calls := [];
    }

    /** `walk(ancestors, node, path, fn)`: on return `ancestors` and `path` are
        as on entry, and the iteratee has seen the calls of `WalkCalls`. */
    method Walk(node: Value, fn: Iteratee)
      modifies this
      ensures ancestors == old(ancestors) && path == old(path)
      ensures calls == old(calls) + WalkCalls(old(ancestors), node, old(path), fn)
      decreases node
    {
      var processChildren := Process(fn, ancestors, node, path);
      if fn.Some? {
        calls := calls + [Call(ancestors, node, path)];
      }
      ghost var own := calls;
      ghost var mine: seq<Call> := if fn.Some? then [Call(old(ancestors), node, old(path))] else [];
      assert own == old(calls) + mine;
      ghost var rest: seq<Call> := [];
      if node !in ancestors {
        ghost var below := old(ancestors) + [node];
        ancestors := ancestors + [node];
        if processChildren != Bool(false) {
          for i := 0 to RefScan.ChildCount(node)
            invariant ancestors == below && path == old(path)
            invariant calls + ChildCalls(below, node, path, fn, i) == own + ChildCalls(below, node, path, fn, 0)
          {
            ghost var before := calls;
            path := path + [RefScan.ChildKey(node, i)];
            Walk(RefScan.Child(node, i), fn);
            path := path[..|path| - 1];
            ChildCallsStep(before, below, node, path, fn, i);
          }
          rest := ChildCalls(below, node, old(path), fn, 0);
        }
        ancestors := ancestors[..|ancestors| - 1];
      }
      assert calls == own + rest;
      assert WalkCalls(old(ancestors), node, old(path), fn) == mine + rest;
      assert calls == old(calls) + (mine + rest);
    }
  }

  /** One step of the child loop of `Walk`. */
  lemma ChildCallsStep(before: seq<Call>, ancestors: seq<Value>, node: Value, path: seq<string>, fn: Iteratee, i: nat)
    requires i < RefScan.ChildCount(node)
    ensures before + WalkCalls(ancestors, RefScan.Child(node, i), path + [RefScan.ChildKey(node, i)], fn) + ChildCalls(ancestors, node, path, fn, i + 1)
            == before + ChildCalls(ancestors, node, path, fn, i)
  {
  }

  /** The height of a tree: children are strictly lower than their parent. */
  function Height(v: Value): nat
    decreases v, 1
  {
    if RefScan.ChildCount(v) == 0 then 0 else 1 + MaxHeight(v, 0)
  }

  function MaxHeight(v: Value, i: nat): nat
    requires i <= RefScan.ChildCount(v)
    decreases v, 0, RefScan.ChildCount(v) - i
  {
    if i == RefScan.ChildCount(v) then 0
    else
      var h := Height(RefScan.Child(v, i));
      var rest := MaxHeight(v, i + 1);
      if h < rest then rest else h
  }

  lemma {:induction false} ChildBelowMax(v: Value, i: nat, j: nat)
    requires i <= j < RefScan.ChildCount(v)
    ensures Height(RefScan.Child(v, j)) <= MaxHeight(v, i)
    decreases j - i
  {
    if i < j {
      ChildBelowMax(v, i + 1, j);
    }
  }

  lemma ChildLower(v: Value, j: nat)
    requires j < RefScan.ChildCount(v)
    ensures Height(RefScan.Child(v, j)) < Height(v)
  {
    ChildBelowMax(v, 0, j);
  }

  /** The pairs of path and node of a sequence of calls, or of visits. */
  function CallSites(cs: seq<Call>): seq<(seq<string>, Value)> {
    if |cs| == 0 then [] else [(cs[0].path, cs[0].node)] + CallSites(cs[1..])
  }

  function VisitSites(vs: seq<RefScan.Visit>): seq<(seq<string>, Value)> {
    if |vs| == 0 then [] else [(vs[0].path, vs[0].node)] + VisitSites(vs[1..])
  }

  lemma {:induction false} CallSitesAppend(a: seq<Call>, b: seq<Call>)
    ensures CallSites(a + b) == CallSites(a) + CallSites(b)
  {
    if |a| > 0 {
      assert (a + b)[1..] == a[1..] + b;
      CallSitesAppend(a[1..], b);
    } else {
      assert a + b == b;
    }
  }

  lemma {:induction false} VisitSitesAppend(a: seq<RefScan.Visit>, b: seq<RefScan.Visit>)
    ensures VisitSites(a + b) == VisitSites(a) + VisitSites(b)
  {
    if |a| > 0 {
      assert (a + b)[1..] == a[1..] + b;
      VisitSitesAppend(a[1..], b);
    } else {
      assert a + b == b;
    }
  }

  /** An iteratee that never returns `false`. */
  ghost predicate NeverStops(f: (seq<Value>, Value, seq<string>) -> Value) {
    forall a, n, p :: f(a, n, p) != Bool(false)
  }

  /** From an ancestor stack of higher nodes (an empty one in particular), an
      iteratee that never stops is called on every node of the tree, in the
      pre-order of the reference scan, with the same paths: on a tree the
      ancestor check never fires. */
  lemma {:induction false} WalkVisitsEveryNode(ancestors: seq<Value>, node: Value, path: seq<string>,
                                              f: (seq<Value>, Value, seq<string>) -> Value, parent: Option<Value>)
    requires NeverStops(f)
    requires forall a :: a in ancestors ==> Height(a) > Height(node)
    ensures CallSites(WalkCalls(ancestors, node, path, Some(f))) == VisitSites(RefScan.Visits(node, path, parent))
    decreases node, 1
  {
    assert node !in ancestors;
    ChildWalksVisitEveryNode(ancestors + [node], node, path, f, 0);
    CallSitesAppend([Call(ancestors, node, path)], ChildCalls(ancestors + [node], node, path, Some(f), 0));
    VisitSitesAppend([RefScan.Visit(path, node, parent)], RefScan.ChildVisits(node, path, 0));
  }

  lemma {:induction false} ChildWalksVisitEveryNode(ancestors: seq<Value>, node: Value, path: seq<string>,
                                                   f: (seq<Value>, Value, seq<string>) -> Value, i: nat)
    requires NeverStops(f)
    requires i <= RefScan.ChildCount(node)
    requires forall a :: a in ancestors ==> Height(a) >= Height(node)
    ensures CallSites(ChildCalls(ancestors, node, path, Some(f), i)) == VisitSites(RefScan.ChildVisits(node, path, i))
    decreases node, 0, RefScan.ChildCount(node) - i
  {
    if i < RefScan.ChildCount(node) {
      var c := RefScan.Child(node, i);
      var key := RefScan.ChildKey(node, i);
      ChildLower(node, i);
      WalkVisitsEveryNode(ancestors, c, path + [key], f, Some(node));
      ChildWalksVisitEveryNode(ancestors, node, path, f, i + 1);
      CallSitesAppend(WalkCalls(ancestors, c, path + [key], Some(f)), ChildCalls(ancestors, node, path, Some(f), i + 1));
      VisitSitesAppend(RefScan.Visits(c, path + [key], Some(node)), RefScan.ChildVisits(node, path, i + 1));
    }
  }

  /** An iteratee that returns `false` on a node sees nothing below it. */
  lemma WalkStopsOnFalse(ancestors: seq<Value>, node: Value, path: seq<string>, f: (seq<Value>, Value, seq<string>) -> Value)
    requires f(ancestors, node, path) == Bool(false)
    ensures WalkCalls(ancestors, node, path, Some(f)) == [Call(ancestors, node, path)]
  {
  }

  /** How a run of `walk` as written ends: the calls the iteratee saw, the
      error thrown if any, and the shared `ancestors` and `path` afterwards. */
  datatype WalkRun = WalkRun(calls: seq<Call>, thrown: Option<Error>, ancestors: seq<Value>, path: seq<string>)

  /** `walk` as lib/utils.js writes it: inside `walkItem` the name `walk` is
      not bound (the method is `this.walk`), so the first child throws a
      ReferenceError. The iteratee has then run on the node, the node is left
      on `ancestors` and the child's key on `path`. */
  function WalkAsWritten(ancestors: seq<Value>, node: Value, path: seq<string>, fn: Iteratee): (r: WalkRun)
    ensures r.calls <= WalkCalls(ancestors, node, path, fn)
    ensures r.thrown.None? <==>
              node in ancestors || Process(fn, ancestors, node, path) == Bool(false) || RefScan.ChildCount(node) == 0
    ensures r.thrown.None? ==> r.calls == WalkCalls(ancestors, node, path, fn) && r.ancestors == ancestors && r.path == path
    ensures r.thrown.Some? ==>
              && r.thrown.value.ReferenceError?
              && r.ancestors == ancestors + [node]
              && r.path == path + [RefScan.ChildKey(node, 0)]
  {
    var mine := if fn.Some? then [Call(ancestors, node, path)] else [];
    if node in ancestors || Process(fn, ancestors, node, path) == Bool(false) || RefScan.ChildCount(node) == 0 then
      WalkRun(mine, None, ancestors, path)
    else
      WalkRun(mine, Some(ReferenceError("walk is not defined")), ancestors + [node], path + [RefScan.ChildKey(node, 0)])
  }

  /** A one-member object walked with an iteratee that goes on: as written the
      walk throws after the call on the object, where the evident intent next
      calls the iteratee on the member, under its key. */
  lemma WalkAsWrittenThrows(node: Value, k: string, v: Value, f: (seq<Value>, Value, seq<string>) -> Value)
    requires node == Obj([Field(k, v)]) && f([], node, []) != Bool(false)
    ensures WalkAsWritten([], node, [], Some(f)) ==
              WalkRun([Call([], node, [])], Some(ReferenceError("walk is not defined")), [node], [k])
    ensures |WalkCalls([], node, [], Some(f))| >= 2
    ensures WalkCalls([], node, [], Some(f))[..2] == [Call([], node, []), Call([node], v, [k])]
  {
    var below := WalkCalls([node], v, [k], Some(f));
    assert RefScan.ChildCount(node) == 1 && RefScan.Child(node, 0) == v && RefScan.ChildKey(node, 0) == k;
    var root: seq<string> := [];
    assert root + [k] == [k];
    assert ChildCalls([node], node, [], Some(f), 0) == below + ChildCalls([node], node, [], Some(f), 1);
    assert below[0] == Call([node], v, [k]);
  }

  // ---------------------------------------------------------------------------
  // The reference filter

  /** `options.filter`: a value (a type, a list of types, undefined, or anything
      else), or a function of the details and the path. */
  datatype Filter =
    | FilterValue(v: Value)
    | FilterFunction(f: (RefDetails, seq<string>) -> bool)

  datatype FilterOptions = FilterOptions(filter: Filter, includeInvalid: Value)

  /** The predicate `makeRefFilter(options)` returns, applied to `refDetails`
      and `path`: invalid details pass only with `includeInvalid === true`;
      then a string or list of types is matched against the type or the
      classified type, a function is asked, and an undefined filter lets
      everything through. Any other filter leaves the inner predicate
      undefined, and calling it throws. */
  function RefFilter(options: FilterOptions, d: RefDetails, path: seq<string>): (r: Result<bool>)
    ensures r == Ok(true) ==> d.refType != "invalid" || options.includeInvalid == Bool(true)
    ensures r.Err? <==> (d.refType != "invalid" || options.includeInvalid == Bool(true)) && options.filter.FilterValue? &&
                        !(options.filter.v.Str? || options.filter.v.Arr? || options.filter.v.Undefined?)
    ensures r.Err? && !options.filter.v.Fn? ==> r.error.TypeError?
  {
    if d.refType == "invalid" && options.includeInvalid != Bool(true) then Ok(false)
    else
      match options.filter
      case FilterFunction(f) => Ok(f(d, path))
      case FilterValue(v) =>
        match v
        case Str(s) => Ok(s == d.refType || s == GetRefType(d))
        case Arr(types) => Ok(Str(d.refType) in types || Str(GetRefType(d)) in types)
        case Undefined => Ok(true)
        case Fn(_) => Err(Unmodelled("a filter function without a modelled behaviour"))
        case _ => Err(TypeError("refFilter is not a function"))
  }

  /** The predicate as lib/utils.js writes it: the returned closure calls
      `this.refFilter`, which the class does not define, so every admissible
      reference makes it throw, whatever the filter. */
  function RefFilterAsWritten(options: FilterOptions, d: RefDetails, path: seq<string>): (r: Result<bool>)
    ensures r.Ok? <==> d.refType == "invalid" && options.includeInvalid != Bool(true)
    ensures r.Ok? ==> r == RefFilter(options, d, path)
  {
    if d.refType == "invalid" && options.includeInvalid != Bool(true) then Ok(false)
    else Err(TypeError("this.refFilter is not a function"))
  }

  /** With no filter, a valid local reference is rejected by a thrown error as
      written, where the evident intent lets it through. */
  lemma UndefinedFilterAsWrittenThrows()
    ensures RefFilterAsWritten(FilterOptions(FilterValue(Undefined), Undefined), RefDetails("same-document", "local", None, false), []).Err?
    ensures RefFilter(FilterOptions(FilterValue(Undefined), Undefined), RefDetails("same-document", "local", None, false), []) == Ok(true)
  {
  }

  /** Invalid details are rejected unless `includeInvalid` is exactly `true`. */
  lemma FilterRejectsInvalid(options: FilterOptions, d: RefDetails, path: seq<string>)
    requires d.refType == "invalid" && options.includeInvalid != Bool(true)
    ensures RefFilter(options, d, path) == Ok(false)
  {
  }

  /** A string filter behaves as the list holding that string. */
  lemma StringFilterIsSingletonList(s: string, includeInvalid: Value, d: RefDetails, path: seq<string>)
    ensures RefFilter(FilterOptions(FilterValue(Str(s)), includeInvalid), d, path) ==
            RefFilter(FilterOptions(FilterValue(Arr([Str(s)])), includeInvalid), d, path)
  {
  }

  /** A list accepts admissible details exactly when it names their type or
      their classified type. */
  lemma ListFilterAccepts(types: seq<Value>, includeInvalid: Value, d: RefDetails, path: seq<string>)
    requires d.refType != "invalid" || includeInvalid == Bool(true)
    ensures RefFilter(FilterOptions(FilterValue(Arr(types)), includeInvalid), d, path) ==
            Ok(exists i :: 0 <= i < |types| && (types[i] == Str(d.refType) || types[i] == Str(GetRefType(d))))
  {
  }

  /** Valid details always pass the test for invalid ones: with no filter they
      are accepted. */
  lemma ValidDetailsAccepted(includeInvalid: Value, d: RefDetails, path: seq<string>)
    requires IsValid(d)
    ensures RefFilter(FilterOptions(FilterValue(Undefined), includeInvalid), d, path) == Ok(true)
  {
  }

  /** Without a filter every admissible reference passes. */
  lemma UndefinedFilterAcceptsAll(includeInvalid: Value, d: RefDetails, path: seq<string>)
    ensures RefFilter(FilterOptions(FilterValue(Undefined), includeInvalid), d, path) ==
            Ok(d.refType != "invalid" || includeInvalid == Bool(true))
  {
  }

  // ---------------------------------------------------------------------------
  // The remote-document cache

  /** How a load is rejected: with an `Error` object, or with another value. */
  datatype Rejection = ErrorObject(error: Error) | OtherReason(reason: Value)

  /** What the loader settles with. */
  datatype Settled = Fulfilled(value: Value) | Rejected(rejection: Rejection)

  /** A cache entry: `{value}` or `{error}`. */
  datatype CacheEntry = CachedValue(value: Value) | CachedError(rejection: Rejection)

  /** What a cached entry gives back: its value, or its error rethrown when it
      is an `Error` (another rejection reason reads as an undefined value). */
  function Replay(e: CacheEntry): (s: Settled)
    ensures e.CachedValue? ==> s == Fulfilled(e.value)
    ensures s.Rejected? ==> e.CachedError? && e.rejection.ErrorObject? && s.rejection == e.rejection
  {
    match e
    case CachedValue(v) => Fulfilled(v)
    case CachedError(ErrorObject(err)) => Rejected(ErrorObject(err))
    case CachedError(OtherReason(_)) => Fulfilled(Undefined)
  }

  /** The module-level `remoteCache` of lib/utils.js, keyed by the full URL. */
  class RemoteDocumentCache {
    var entries: map<string, CacheEntry>

    constructor ()
      ensures entries == map[]
    {
      entries := map[];
    }

    /** `getRemoteDocument(url, options)` with the path loader abstracted as
        `load`: the loader runs only for a URL without an entry, and what it
        settles with is stored; otherwise the entry is replayed. Results are
        deep copies, which on values are the values themselves. */
    method GetRemoteDocument(url: string, load: string -> Settled) returns (r: Settled, loaded: bool)
      modifies this
      ensures loaded <==> url !in old(entries)
      ensures !loaded ==> r == Replay(old(entries)[url]) && entries == old(entries)
      ensures loaded && load(url).Fulfilled? ==> r == load(url) && entries == old(entries)[url := CachedValue(load(url).value)]
      ensures loaded && load(url).Rejected? ==> r == load(url) && entries == old(entries)[url := CachedError(load(url).rejection)]
      ensures url in entries
    {
      if url in entries {
        return Replay(entries[url]), false;
      }
      loaded := true;
      r := load(url);
      match r
      case Fulfilled(v) => entries := entries[url := CachedValue(v)];
      case Rejected(why) => entries := entries[url := CachedError(why)];
    }
  }

  /** `getRemoteDocument` as lib/utils.js writes it: `remoteCache` is declared
      nowhere in the file, so reading `remoteCache[url]` throws a
      ReferenceError on every call, before the loader could run. */
  function GetRemoteDocumentAsWritten(url: string): (r: Result<Settled>)
    ensures r.Err? && r.error.ReferenceError?
  {
    Err(ReferenceError("remoteCache is not defined"))
  }

  /** A first request: the code as written throws, where the evident intent
      runs the loader and passes on what it settles with. */
  method FirstRequestAsWrittenThrows(url: string, load: string -> Settled) returns (r: Settled, loaded: bool)
    ensures GetRemoteDocumentAsWritten(url).Err?
    ensures loaded && r == load(url)
  {
    var cache := new RemoteDocumentCache();
    r, loaded := cache.GetRemoteDocument(url, load);
  }

  /** After a first call, a second call for the same URL never loads, and it
      gives back what the first gave, unless the first was rejected with a
      reason that is not an `Error`. */
  method GetTwice(cache: RemoteDocumentCache, url: string, load: string -> Settled)
    returns (first: Settled, second: Settled, loadedAgain: bool)
    modifies cache
    ensures !loadedAgain
    ensures !(first.Rejected? && first.rejection.OtherReason?) ==> second == first
    ensures first.Rejected? && first.rejection.OtherReason? ==> second == Fulfilled(Undefined)
  {
    var loaded;
    first, loaded := cache.GetRemoteDocument(url, load);
    second, loadedAgain := cache.GetRemoteDocument(url, load);
  }
}

=== FILE: Resolution.dfy ===
/**
 * The synchronous part of `resolveRefs` in the browser build: its argument
 * checks, the splice of local references into a deep clone of the document
 * (the inner helper `u`, with its per-reference metadata), the rules that turn
 * remote references away before any request, and the cache of
 * `getRemoteJson`, keyed by the URL without its fragment.
 */
module Resolution {
  import opened Json
  import opened Pointer
  import opened RefScan

  // ---------------------------------------------------------------------------
  // Arguments

  /** The three arguments after the two-argument form `resolveRefs(json, done)`
      has been read as `resolveRefs(json, {}, done)`. */
  datatype Arguments = Arguments(json: Value, options: Value, done: Value)

  function Arg(args: seq<Value>, i: nat): Value {
    if i < |args| then args[i] else Undefined
  }

  function ReadArguments(args: seq<Value>): (a: Arguments)
    ensures |args| < 3 ==> a.options == Obj([]) && a.done == Arg(args, 1)
    ensures |args| >= 3 ==> a.options == args[1] && a.done == args[2]
    ensures a.json == Arg(args, 0)
  {
    if |args| < 3 then Arguments(Arg(args, 0), Obj([]), Arg(args, 1))
    else Arguments(args[0], args[1], args[2])
  }

  /** An option that, when given, must be a function. */
  predicate BadHook(options: Value, name: string) {
    var hook := Member(options, name);
    hook.Some? && !hook.value.Undefined? && !hook.value.Fn?
  }

  /** The first argument check that fails, in the order `resolveRefs` makes them. */
  function ArgumentError(a: Arguments): (r: Option<Error>)
    ensures r.None? <==> IsPlainObject(a.json) && IsPlainObject(a.options) && a.done.Fn? &&
                         !BadHook(a.options, "prepareRequest") && !BadHook(a.options, "processContent")
    ensures a.json.Undefined? ==> r == Some(Error("json is required"))
    ensures IsPlainObject(a.json) && IsPlainObject(a.options) && a.done.Undefined? ==> r == Some(Error("done is required"))
  {
    if a.json.Undefined? then Some(Error("json is required"))
    else if !IsPlainObject(a.json) then Some(Error("json must be an object"))
    else if !IsPlainObject(a.options) then Some(Error("options must be an object"))
    else if a.done.Undefined? then Some(Error("done is required"))
    else if !a.done.Fn? then Some(Error("done must be a function"))
    else if BadHook(a.options, "prepareRequest") then Some(Error("options.prepareRequest must be a function"))
    else if BadHook(a.options, "processContent") then Some(Error("options.processContent must be a function"))
    else None
  }

  // ---------------------------------------------------------------------------
  // Splitting a reference

  /** The text before the first `c` (all of `s` when there is none): `s.split(c)[0]`. */
  function BeforeFirst(s: string, c: char): (r: string)
    ensures |r| <= |s| && r == s[..|r|] && c !in r
    ensures |r| < |s| ==> s[|r|] == c
    ensures c in s ==> |r| < |s|
  {
    if |s| == 0 then ""
    else if s[0] == c then ""
    else [s[0]] + BeforeFirst(s[1..], c)
  }

  /** The pointer a reference targets: its text from the first `#` on, or `#`
      when it has none. */
  function TargetPointer(ref: string): (t: string)
    ensures |t| > 0 && t[0] == '#'
    ensures '#' in ref ==> ref == BeforeFirst(ref, '#') + t
    ensures '#' !in ref ==> t == "#"
  {
    if '#' in ref then ref[|BeforeFirst(ref, '#')|..] else "#"
  }

  /** The segments of the target pointer, as `pathFromPointer` decodes them. */
  function TargetPath(ref: string): seq<string> {
    Decode(TargetPointer(ref)).segs
  }

  /** The path of the object holding the `$ref` member at `ptr`: the pointer,
      decoded by `pathFromPointer`, without its last segment. */
  function ParentPath(ptr: string): seq<string>
    requires !IsRemote(ptr)
  {
    var segs := Decode(ptr).segs;
    if |segs| == 0 then [] else segs[..|segs| - 1]
  }

  /** The parent path of the pointer `findRefs` builds for a reference at `p`:
      one segment per segment of `p`, each with `~1` read as `/`, so `p`
      itself when no segment holds `~1`. */
  lemma ParentPathOfRefPointer(p: seq<string>)
    ensures !IsRemote(EncodePath(p + ["$ref"]))
    ensures |ParentPath(EncodePath(p + ["$ref"]))| == |p|
    ensures forall i :: 0 <= i < |p| ==> ParentPath(EncodePath(p + ["$ref"]))[i] == ReplaceTildePair(p[i], '1', '/')
    ensures (forall i :: 0 <= i < |p| ==> !HasTildeOne(p[i])) ==> ParentPath(EncodePath(p + ["$ref"])) == p
  {
    var segs := p + ["$ref"];
    EncodePathIsLocal(segs);
    DecodeEncodePathSegments(segs);
    assert forall i :: 0 <= i < |p| ==> segs[i] == p[i];
    var at := ParentPath(EncodePath(segs));
    if forall i :: 0 <= i < |p| ==> !HasTildeOne(p[i]) {
      forall i | 0 <= i < |p| ensures at[i] == p[i] {
        ReplaceTildeOneIdentity(p[i]);
      }
    }
  }

  // ---------------------------------------------------------------------------
  // Reading and writing the clone

  /** An own property as the traversal library's `get` and `has` see it: the
      node must be truthy and have the key as an own property. That is a
      member of an object or an array, the `length` of an array, or the
      `length` or a character of a non-empty string. */
  function OwnProperty(v: Value, key: string): (r: Option<Value>)
    ensures Member(v, key).Some? ==> r == Member(v, key)
    ensures r.Some? && Member(v, key).None? ==> (v.Arr? && key == "length") || (v.Str? && |v.s| > 0)
    ensures v.Undefined? || v.Null? || v.Bool? || v.Num? || (v.Str? && |v.s| == 0) ==> r.None?
  {
    match v
    case Arr(a) => if key == "length" then Some(Num(|a|)) else Member(v, key)
    case Str(s) =>
      if |s| == 0 then None
      else if key == "length" then Some(Num(|s|))
      else (match ArrayIndex(key)
            case Some(i) => if i < |s| then Some(Str([s[i]])) else None
            case None => None)
    case _ => Member(v, key)
  }

  /** The traversal library's `get` along a path, with None where its `has`
      is false. It finds everything the value model's `Get` finds. */
  function TraverseGet(v: Value, path: seq<string>): (r: Option<Value>)
    ensures Get(v, path).Some? ==> r == Get(v, path)
    decreases |path|
  {
    if |path| == 0 then Some(v)
    else
      match OwnProperty(v, path[0])
      case Some(c) => TraverseGet(c, path[1..])
      case None => None
  }

  /** The traversal library's `set(path, x)`: follows `path`, creating an empty
      object for each missing intermediate member, and assigns `x` at its end. */
  function TraverseSet(v: Value, path: seq<string>, x: Value): (r: Result<Value>)
    requires |path| > 0
    ensures r.Ok? ==> Get(r.value, path) == Some(x)
    ensures v.Obj? ==> r.Ok? || |path| > 1
    decreases |path|
  {
    var key := path[0];
    var c := Member(v, key);
    if |path| == 1 then
      WriteMember(v, key, x)
    else if c.None? && WriteMember(v, key, Obj([])).Err? then
      WriteMember(v, key, Obj([]))
    else
      var child := if c.Some? then c.value else Obj([]);
      match TraverseSet(child, path[1..], x)
      case Err(e) => Err(e)
      case Ok(child') =>
        var r := WriteMember(v, key, child');
        assert Get(r.value, path) == Get(child', path[1..]);
        r
  }

  lemma GetEmptyObject(q: seq<string>)
    requires |q| > 0
    ensures Get(Obj([]), q) == None
  {
  }

  /** Every location that parts from `path` keeps its value. */
  lemma {:induction false} TraverseSetFrame(v: Value, path: seq<string>, x: Value, q: seq<string>)
    requires |path| > 0 && TraverseSet(v, path, x).Ok?
    requires Disjoint(q, path)
    ensures Get(TraverseSet(v, path, x).value, q) == Get(v, q)
    decreases |path|
  {
    var r := TraverseSet(v, path, x).value;
    var key := path[0];
    if q[0] != key {
      assert Member(r, q[0]) == Member(v, q[0]);
    } else {
      var i :| 0 <= i < |q| && i < |path| && q[i] != path[i];
      assert i > 0;
      assert Disjoint(q[1..], path[1..]) by {
        assert q[1..][i - 1] != path[1..][i - 1];
      }
      var c := Member(v, key);
      var child := if c.Some? then c.value else Obj([]);
      TraverseSetFrame(child, path[1..], x, q[1..]);
      if c.None? {
        GetEmptyObject(q[1..]);
      }
    }
  }

  // ---------------------------------------------------------------------------
  // The splice of one reference

  /** The metadata `resolveRefs` records per reference: `ref`, and `value` when
      the target exists. */
  datatype RefMeta = RefMeta(ref: string, value: Option<Value>)

  /** The value the traversal's `get` reads at the target: undefined when missing. */
  function TargetValue(source: Value, ref: string): (s: Value)
    ensures TraverseGet(source, TargetPath(ref)).Some? ==> Some(s) == TraverseGet(source, TargetPath(ref))
    ensures TraverseGet(source, TargetPath(ref)).None? ==> s.Undefined?
    ensures Get(source, TargetPath(ref)).Some? ==> Some(s) == Get(source, TargetPath(ref))
  {
    match TraverseGet(source, TargetPath(ref))
    case Some(t) => t
    case None => Undefined
  }

  /** The clone after splicing the reference whose `$ref` member is at `ptr`:
      the whole document becomes `source` when the reference is the root;
      otherwise the target is written where the reference object was. */
  function SpliceDoc(doc: Value, source: Value, ref: string, ptr: string): (r: Result<Value>)
    requires !IsRemote(ptr)
    ensures |ParentPath(ptr)| == 0 ==> r == Ok(source)
    ensures r.Ok? && |ParentPath(ptr)| > 0 ==> Get(r.value, ParentPath(ptr)) == Some(TargetValue(source, ref))
    ensures doc.Obj? && |ParentPath(ptr)| == 1 ==> r.Ok?
  {
    var at := ParentPath(ptr);
    if |at| == 0 then Ok(source) else TraverseSet(doc, at, TargetValue(source, ref))
  }

  /** The metadata entry for the reference, with the root case's "missing" flag
      as evidently intended: the value is recorded when there is one. */
  function SpliceMeta(source: Value, ref: string, ptr: string): (m: RefMeta)
    requires !IsRemote(ptr)
    ensures m.ref == ref
    ensures |ParentPath(ptr)| > 0 ==> (m.value.Some? <==> TraverseGet(source, TargetPath(ref)).Some?)
    ensures |ParentPath(ptr)| == 0 ==> (m.value.Some? <==> !source.Undefined?)
  {
    if |ParentPath(ptr)| == 0 then
      RefMeta(ref, if source.Undefined? then None else Some(source))
    else
      RefMeta(ref, TraverseGet(source, TargetPath(ref)))
  }

  /** The metadata entry as written: in the root case the flag is set when the
      source is defined, so the value is recorded only when it is undefined. */
  function SpliceMetaAsWritten(source: Value, ref: string, ptr: string): (m: RefMeta)
    requires !IsRemote(ptr)
    ensures m.ref == ref
    ensures |ParentPath(ptr)| == 0 ==> (m.value.Some? <==> source.Undefined?)
    ensures |ParentPath(ptr)| > 0 ==> m == SpliceMeta(source, ref, ptr)
  {
    if |ParentPath(ptr)| == 0 then
      RefMeta(ref, if !source.Undefined? then None else Some(source))
    else
      RefMeta(ref, TraverseGet(source, TargetPath(ref)))
  }

  /** A reference not at the root, none of whose segments holds `~1`, lands at
      its own location, and nothing apart from that location changes. */
  lemma SpliceWritesTarget(doc: Value, source: Value, p: seq<string>, ref: string, q: seq<string>)
    requires |p| > 0
    requires forall i :: 0 <= i < |p| ==> !HasTildeOne(p[i])
    ensures !IsRemote(EncodePath(p + ["$ref"]))
    ensures SpliceDoc(doc, source, ref, EncodePath(p + ["$ref"])).Ok? ==>
              var d := SpliceDoc(doc, source, ref, EncodePath(p + ["$ref"])).value;
              Get(d, p) == Some(TargetValue(source, ref)) && (Disjoint(q, p) ==> Get(d, q) == Get(doc, q))
  {
    ParentPathOfRefPointer(p);
    if SpliceDoc(doc, source, ref, EncodePath(p + ["$ref"])).Ok? && Disjoint(q, p) {
      TraverseSetFrame(doc, p, TargetValue(source, ref), q);
    }
  }

  /** A reference held by a member whose name holds `~1` is written under
      another name, and the reference object stays where it was. */
  lemma SpliceTildeOneCounterexample(doc: Value, key: string, ref: string)
    requires key == "a~1b"
    requires doc == Obj([Field(key, Obj([Field("$ref", Str(ref))])), Field("x", Num(1))])
    ensures !IsRemote(EncodePath([key, "$ref"]))
    ensures ParentPath(EncodePath([key, "$ref"])) == ["a/b"]
    ensures SpliceDoc(doc, doc, ref, EncodePath([key, "$ref"])).Ok?
    ensures Get(SpliceDoc(doc, doc, ref, EncodePath([key, "$ref"])).value, ["a/b"]) == Some(TargetValue(doc, ref))
    ensures Get(SpliceDoc(doc, doc, ref, EncodePath([key, "$ref"])).value, [key]) == Get(doc, [key])
    ensures Get(doc, [key]) == Some(Obj([Field("$ref", Str(ref))]))
  {
    assert key == ['a'] + ['~', '1'] + "b";
    assert ['a'] + ['/'] + "b" == "a/b";
    SpliceTildeOne(doc, 'a', "b", key, "x", Num(1), ref);
  }

  /** The counterexample above, for any member name `c~1tail` with no other `~`. */
  lemma SpliceTildeOne(doc: Value, c: char, tail: string, key: string, other: string, w: Value, ref: string)
    requires c != '~' && '~' !in tail
    requires key == [c] + ['~', '1'] + tail
    requires doc == Obj([Field(key, Obj([Field("$ref", Str(ref))])), Field(other, w)])
    ensures !IsRemote(EncodePath([key, "$ref"]))
    ensures ParentPath(EncodePath([key, "$ref"])) == [[c] + ['/'] + tail]
    ensures SpliceDoc(doc, doc, ref, EncodePath([key, "$ref"])).Ok?
    ensures Get(SpliceDoc(doc, doc, ref, EncodePath([key, "$ref"])).value, [[c] + ['/'] + tail]) == Some(TargetValue(doc, ref))
    ensures Get(SpliceDoc(doc, doc, ref, EncodePath([key, "$ref"])).value, [key]) == Get(doc, [key])
    ensures Get(doc, [key]) == Some(Obj([Field("$ref", Str(ref))]))
  {
    var moved := [c] + ['/'] + tail;
    ParentPathOfRefPointer([key]);
    assert [key] + ["$ref"] == [key, "$ref"];
    TildeOneUnescaped(c, tail);
    assert ParentPath(EncodePath([key, "$ref"])) == [moved];
    assert key[1] != moved[1];
    assert Disjoint([key], [moved]);
    TraverseSetFrame(doc, [moved], TargetValue(doc, ref), [key]);
  }

  /** `c~1tail` unescapes `~1` to `c/tail`. */
  lemma TildeOneUnescaped(c: char, tail: string)
    requires c != '~' && '~' !in tail
    ensures ReplaceTildePair([c] + ['~', '1'] + tail, '1', '/') == [c] + ['/'] + tail
  {
    assert [c] + ['~', '1'] + tail == [c] + (['~', '1'] + tail);
    ReplaceOther(c, ['~', '1'] + tail, '1', '/');
    ReplaceMatch(tail, '1', '/');
    ReplaceTildePairIdentity(tail, '1', '/');
    assert [c] + (['/'] + tail) == [c] + ['/'] + tail;
  }

  /** A reference that is a built pointer, with no segment holding `~1`,
      targets that very path. */
  lemma TargetPathOfEncodePath(segs: seq<string>)
    requires forall i :: 0 <= i < |segs| ==> !HasTildeOne(segs[i])
    ensures TargetPointer(EncodePath(segs)) == EncodePath(segs)
    ensures TargetPath(EncodePath(segs)) == segs
  {
    var r := EncodePath(segs);
    EncodePathIsLocal(segs);
    assert BeforeFirst(r, '#') == "";
    assert r[0..] == r;
    DecodeEncodePath(segs);
  }

  /** The splice writes values, so nothing is shared between a target and the
      places it was spliced to. In `{"a": {"$ref": "#/b"}, "b": {"c": {"$ref":
      "#/d"}}, "d": 5}`, with the references in the order `findRefs` lists
      them, the second splice resolves `b.c` but leaves the copy under `a`
      holding the reference. */
  lemma SharedTargetCounterexample(doc: Value, r1: string, r2: string, inner: Value)
    requires r1 == EncodePath(["b"]) && r2 == EncodePath(["d"])
    requires inner == Obj([Field("c", Obj([Field("$ref", Str(r2))]))])
    requires doc == Obj([Field("a", Obj([Field("$ref", Str(r1))])), Field("b", inner), Field("d", Num(5))])
    ensures RefEntries([Field(EncodePath(["a", "$ref"]), Str(r1)), Field(EncodePath(["b", "c", "$ref"]), Str(r2))])
    ensures Pass(PassState(doc, map[], []), [Field(EncodePath(["a", "$ref"]), Str(r1)), Field(EncodePath(["b", "c", "$ref"]), Str(r2))]).Ok?
    ensures var out := Pass(PassState(doc, map[], []), [Field(EncodePath(["a", "$ref"]), Str(r1)), Field(EncodePath(["b", "c", "$ref"]), Str(r2))]).value.doc;
            Get(out, ["b", "c"]) == Some(Num(5)) && Get(out, ["a", "c"]) == Some(Obj([Field("$ref", Str(r2))]))
  {
    assert !HasTildeOne("a") && !HasTildeOne("b") && !HasTildeOne("c") && !HasTildeOne("d");
    assert "a" != "b" && "a" != "d" && "b" != "d";
    SharedTarget(doc, "a", "b", "c", "d", r1, r2, inner);
  }

  /** The counterexample above, for any four plain member names. */
  lemma SharedTarget(doc: Value, ka: string, kb: string, kc: string, kd: string, r1: string, r2: string, inner: Value)
    requires !HasTildeOne(ka) && !HasTildeOne(kb) && !HasTildeOne(kc) && !HasTildeOne(kd)
    requires ka != kb && ka != kd && kb != kd
    requires r1 == EncodePath([kb]) && r2 == EncodePath([kd])
    requires inner == Obj([Field(kc, Obj([Field("$ref", Str(r2))]))])
    requires doc == Obj([Field(ka, Obj([Field("$ref", Str(r1))])), Field(kb, inner), Field(kd, Num(5))])
    ensures RefEntries([Field(EncodePath([ka, "$ref"]), Str(r1)), Field(EncodePath([kb, kc, "$ref"]), Str(r2))])
    ensures Pass(PassState(doc, map[], []), [Field(EncodePath([ka, "$ref"]), Str(r1)), Field(EncodePath([kb, kc, "$ref"]), Str(r2))]).Ok?
    ensures var out := Pass(PassState(doc, map[], []), [Field(EncodePath([ka, "$ref"]), Str(r1)), Field(EncodePath([kb, kc, "$ref"]), Str(r2))]).value.doc;
            Get(out, [kb, kc]) == Some(Num(5)) && Get(out, [ka, kc]) == Some(Obj([Field("$ref", Str(r2))]))
  {
    var p1 := EncodePath([ka, "$ref"]);
    var p2 := EncodePath([kb, kc, "$ref"]);
    var st0 := PassState(doc, map[], []);
    var st1 := FirstSharedSplice(doc, ka, kb, kd, r1, inner, p1);
    var f := SecondSharedSplice(st1.doc, ka, kb, kc, kd, r2, inner, p2);
    StepLocal(st0, Field(p1, Str(r1)));
    StepLocal(st1, Field(p2, Str(r2)));
    PassOfTwo(st0, Field(p1, Str(r1)), Field(p2, Str(r2)));
  }

  /** A local reference whose splice succeeds takes one step of the loop. */
  lemma StepLocal(st: PassState, f: Field)
    requires f.value.Str? && !IsRemote(f.key) && !IsRemote(f.value.s)
    requires SpliceDoc(st.doc, st.doc, f.value.s, f.key).Ok?
    ensures Step(st, f) == Ok(PassState(SpliceDoc(st.doc, st.doc, f.value.s, f.key).value,
                                        st.metadata[f.key := SpliceMeta(st.doc, f.value.s, f.key)], st.remotes))
  {
  }

  /** The loop over two references is two steps. */
  lemma PassOfTwo(st: PassState, f1: Field, f2: Field)
    requires f1.value.Str? && !IsRemote(f1.key) && f2.value.Str? && !IsRemote(f2.key)
    requires Step(st, f1).Ok?
    ensures RefEntries([f1, f2])
    ensures Pass(st, [f1, f2]) == Step(Step(st, f1).value, f2)
  {
    var refs := [f1, f2];
    assert refs[0] == f1 && refs[1] == f2;
    assert RefEntries(refs);
    assert refs[1..] == [f2];
    PassUnfold(st, refs);
    PassOfOne(Step(st, f1).value, f2);
  }

  lemma PassUnfold(st: PassState, refs: seq<Field>)
    requires RefEntries(refs) && |refs| > 0
    ensures RefEntries(refs[1..])
    ensures Pass(st, refs) == match Step(st, refs[0]) case Err(e) => Err(e) case Ok(st') => Pass(st', refs[1..])
  {
    assert forall i :: 0 <= i < |refs| - 1 ==> refs[1..][i] == refs[i + 1];
  }

  lemma PassOfOne(st: PassState, f: Field)
    requires f.value.Str? && !IsRemote(f.key)
    ensures RefEntries([f])
    ensures Pass(st, [f]) == Step(st, f)
  {
    assert [f][0] == f;
    assert [f][1..] == [];
    PassUnfold(st, [f]);
  }

  /** A splice whose parent path is one key writes that member of the object. */
  lemma SpliceOneLevel(doc: Value, ref: string, ptr: string, k: string)
    requires doc.Obj? && !IsRemote(ptr) && ParentPath(ptr) == [k]
    ensures SpliceDoc(doc, doc, ref, ptr) == WriteMember(doc, k, TargetValue(doc, ref))
    ensures WriteMember(doc, k, TargetValue(doc, ref)).Ok?
  {
    WriteMemberOfObject(doc, k, TargetValue(doc, ref));
  }

  /** The first splice of the counterexample: `kb` is copied over the
      reference under `ka`, and `kb` and `kd` are untouched. */
  lemma FirstSharedSplice(doc: Value, ka: string, kb: string, kd: string, r1: string, inner: Value, p1: string)
    returns (st1: PassState)
    requires !HasTildeOne(ka) && !HasTildeOne(kb)
    requires ka != kb && ka != kd && kb != kd
    requires r1 == EncodePath([kb])
    requires doc == Obj([Field(ka, Obj([Field("$ref", Str(r1))])), Field(kb, inner), Field(kd, Num(5))])
    requires p1 == EncodePath([ka, "$ref"])
    ensures !IsRemote(p1) && !IsRemote(r1)
    ensures SpliceDoc(doc, doc, r1, p1).Ok?
    ensures st1 == PassState(SpliceDoc(doc, doc, r1, p1).value, map[p1 := SpliceMeta(doc, r1, p1)], [])
    ensures st1.doc.Obj? && Member(st1.doc, kb) == Some(inner) && Get(st1.doc, [kd]) == Some(Num(5))
    ensures Get(st1.doc, [ka]) == Some(inner)
  {
    RefPointerOfOneKey(ka);
    ThreeMembers(doc, ka, kb, kd, Obj([Field("$ref", Str(r1))]), inner, Num(5));
    TargetOfOneKey(doc, kb);
    var x1 := TargetValue(doc, r1);
    SpliceOneLevel(doc, r1, p1, ka);
    var e := WriteMember(doc, ka, x1).value;
    assert Disjoint([kb], [ka]) && Disjoint([kd], [ka]);
    TraverseSetFrame(doc, [ka], x1, [kb]);
    TraverseSetFrame(doc, [ka], x1, [kd]);
    st1 := PassState(e, map[p1 := SpliceMeta(doc, r1, p1)], []);
  }

  /** The second splice of the counterexample: `5` is written at `kb.kc`, and
      the copy under `ka` keeps its reference. */
  lemma SecondSharedSplice(e: Value, ka: string, kb: string, kc: string, kd: string, r2: string, inner: Value, p2: string)
    returns (f: Value)
    requires !HasTildeOne(kb) && !HasTildeOne(kc) && !HasTildeOne(kd)
    requires ka != kb
    requires r2 == EncodePath([kd])
    requires inner == Obj([Field(kc, Obj([Field("$ref", Str(r2))]))])
    requires p2 == EncodePath([kb, kc, "$ref"])
    requires e.Obj? && Member(e, kb) == Some(inner) && Get(e, [kd]) == Some(Num(5)) && Get(e, [ka]) == Some(inner)
    ensures !IsRemote(p2) && !IsRemote(r2)
    ensures SpliceDoc(e, e, r2, p2) == Ok(f)
    ensures Get(f, [kb, kc]) == Some(Num(5)) && Get(f, [ka, kc]) == Some(Obj([Field("$ref", Str(r2))]))
  {
    RefPointerOfTwoKeys(kb, kc);
    TargetOfOneKey(e, kd);
    SetTwoLevels(e, kb, kc, Num(5));
    f := TraverseSet(e, [kb, kc], Num(5)).value;
    assert SpliceDoc(e, e, r2, p2) == Ok(f);
    assert Disjoint([ka, kc], [kb, kc]);
    TraverseSetFrame(e, [kb, kc], Num(5), [ka, kc]);
    assert Member(e, ka) == Some(inner);
    GetTwoLevels(e, ka, kc);
    assert Get(inner, [kc]) == Some(Obj([Field("$ref", Str(r2))]));
  }

  lemma RefPointerOfOneKey(k: string)
    requires !HasTildeOne(k)
    ensures !IsRemote(EncodePath([k, "$ref"])) && ParentPath(EncodePath([k, "$ref"])) == [k]
  {
    ParentPathOfRefPointer([k]);
    assert [k] + ["$ref"] == [k, "$ref"];
  }

  lemma RefPointerOfTwoKeys(k1: string, k2: string)
    requires !HasTildeOne(k1) && !HasTildeOne(k2)
    ensures !IsRemote(EncodePath([k1, k2, "$ref"])) && ParentPath(EncodePath([k1, k2, "$ref"])) == [k1, k2]
  {
    ParentPathOfRefPointer([k1, k2]);
    assert [k1, k2] + ["$ref"] == [k1, k2, "$ref"];
  }

  /** A reference `#/k` to a present member is local and targets that member. */
  lemma TargetOfOneKey(source: Value, k: string)
    requires !HasTildeOne(k) && Get(source, [k]).Some?
    ensures !IsRemote(EncodePath([k])) && TargetValue(source, EncodePath([k])) == Get(source, [k]).value
  {
    TargetPathOfEncodePath([k]);
    EncodePathIsLocal([k]);
  }

  /** `set` two levels down, through an object member, into an object. */
  lemma SetTwoLevels(v: Value, k1: string, k2: string, x: Value)
    requires v.Obj? && Member(v, k1).Some? && Member(v, k1).value.Obj?
    ensures TraverseSet(v, [k1, k2], x).Ok?
  {
    assert [k1, k2][1..] == [k2];
    WriteMemberOfObject(Member(v, k1).value, k2, x);
  }

  lemma GetTwoLevels(v: Value, k1: string, k2: string)
    requires Member(v, k1).Some?
    ensures Get(v, [k1, k2]) == Get(Member(v, k1).value, [k2])
  {
    assert [k1, k2][1..] == [k2];
  }

  lemma ThreeMembers(doc: Value, ka: string, kb: string, kd: string, va: Value, vb: Value, vd: Value)
    requires ka != kb && ka != kd && kb != kd
    requires doc == Obj([Field(ka, va), Field(kb, vb), Field(kd, vd)])
    ensures Get(doc, [ka]) == Some(va) && Get(doc, [kb]) == Some(vb) && Get(doc, [kd]) == Some(vd)
  {
    var fs := doc.fields;
    assert fs[1..] == [Field(kb, vb), Field(kd, vd)];
    assert fs[1..][1..] == [Field(kd, vd)];
    assert Lookup(fs, kd) == Some(vd);
  }

  /** A reference held by an object member always lands: the write cannot fail. */
  lemma SpliceIntoObject(doc: Value, source: Value, key: string, ref: string)
    requires doc.Obj?
    ensures !IsRemote(EncodePath([key, "$ref"]))
    ensures SpliceDoc(doc, source, ref, EncodePath([key, "$ref"])).Ok?
  {
    ParentPathOfRefPointer([key]);
    assert [key] + ["$ref"] == [key, "$ref"];
  }

  /** The metadata records, under `ref`, the very value the splice wrote where
      the reference was; it records no value exactly when that value is
      undefined. */
  lemma SpliceMetaRecordsTarget(doc: Value, source: Value, ref: string, ptr: string)
    requires !IsRemote(ptr) && SpliceDoc(doc, source, ref, ptr).Ok?
    ensures SpliceMeta(source, ref, ptr).ref == ref
    ensures SpliceMeta(source, ref, ptr).value.Some? ==>
              Get(SpliceDoc(doc, source, ref, ptr).value, ParentPath(ptr)) == SpliceMeta(source, ref, ptr).value
    ensures SpliceMeta(source, ref, ptr).value.None? ==>
              Get(SpliceDoc(doc, source, ref, ptr).value, ParentPath(ptr)) == Some(Undefined)
  {
    var d := SpliceDoc(doc, source, ref, ptr).value;
    if |ParentPath(ptr)| == 0 {
      assert Get(d, ParentPath(ptr)) == Some(source);
    }
  }

  /** A document that is itself a reference: the splice makes the clone the
      document again, yet the metadata as written records no value for it. */
  lemma RootMetadataCounterexample(doc: Value, ptr: string)
    requires doc == Obj([Field("$ref", Str("#"))]) && ptr == "#/$ref"
    ensures !IsRemote(ptr)
    ensures SpliceDoc(doc, doc, "#", ptr) == Ok(doc)
    ensures Get(SpliceDoc(doc, doc, "#", ptr).value, ParentPath(ptr)) == Some(doc)
    ensures SpliceMetaAsWritten(doc, "#", ptr) == RefMeta("#", None)
    ensures SpliceMeta(doc, "#", ptr) == RefMeta("#", Some(doc))
  {
    RootRefPointer(ptr);
  }

  /** The loop's step on `{"$ref": "#"}` records the corrected entry, with the
      document as its value, where `u` as written records none. */
  lemma RootStepMetadata(doc: Value, ptr: string)
    requires doc == Obj([Field("$ref", Str("#"))]) && ptr == "#/$ref"
    ensures !IsRemote(ptr) && !IsRemote("#")
    ensures Step(PassState(doc, map[], []), Field(ptr, Str("#"))).Ok?
    ensures Step(PassState(doc, map[], []), Field(ptr, Str("#"))).value.metadata[ptr] == RefMeta("#", Some(doc))
    ensures SpliceMetaAsWritten(doc, "#", ptr) == RefMeta("#", None)
  {
    RootMetadataCounterexample(doc, ptr);
  }

  /** `#/$ref` is the `$ref` member of the document itself. */
  lemma RootRefPointer(ptr: string)
    requires ptr == "#/$ref"
    ensures !IsRemote(ptr) && ParentPath(ptr) == []
  {
    ParentPathOfRefPointer([]);
    assert [] + ["$ref"] == ["$ref"];
    EncodeRefMember();
  }

  lemma EncodeRefMember()
    ensures EncodePath(["$ref"]) == "#/$ref"
  {
    EscapePlain("$ref");
    assert EscapeAll(["$ref"]) == ["$ref"];
    assert EncodePath(["$ref"]) == "#/" + "$ref";
  }

  // ---------------------------------------------------------------------------
  // Remote references

  /** The scheme of a remote reference: the text before its first `:`. */
  function Scheme(ref: string): string {
    BeforeFirst(ref, ':')
  }

  /** Why a remote reference is turned away before any request, if it is. */
  function RemoteRejection(ref: string): (r: Option<Error>)
    ensures r.None? ==> |ref| >= 4 && ref[..4] == "http"
    ensures r.Some? && |ref| > 0 && ref[0] == '.' ==> r.value.message == "Relative remote references are not yet supported"
  {
    if |ref| > 0 && ref[0] == '.' then Some(Error("Relative remote references are not yet supported"))
    else if Scheme(ref) != "http" && Scheme(ref) != "https" then Some(Error("Unsupported remote reference scheme: " + Scheme(ref)))
    else None
  }

  /** The references the allow-list lets through: `http` or `https` up to the
      first colon (or the whole reference). */
  predicate HttpLike(ref: string) {
    ref == "http" || ref == "https" || "http:" <= ref || "https:" <= ref
  }

  lemma {:induction false} BeforeFirstOfPrefix(s: string, c: char, w: string)
    requires c !in w && |s| > |w| && s[..|w|] == w && s[|w|] == c
    ensures BeforeFirst(s, c) == w
  {
    if |w| > 0 {
      assert s[1..][..|w| - 1] == w[1..];
      BeforeFirstOfPrefix(s[1..], c, w[1..]);
      assert w == [s[0]] + w[1..];
    }
  }

  lemma BeforeFirstWhole(s: string, c: char)
    requires c !in s
    ensures BeforeFirst(s, c) == s
  {
  }

  lemma {:induction false} AcceptedIffHttp(ref: string)
    ensures RemoteRejection(ref).None? <==> HttpLike(ref)
  {
    var sch := Scheme(ref);
    if RemoteRejection(ref).None? {
      if |sch| < |ref| {
        assert ref[|sch|] == ':';
        assert ref[..|sch| + 1] == sch + ":";
      } else {
        assert ref == sch;
      }
    } else {
      if "http:" <= ref {
        BeforeFirstOfPrefix(ref, ':', "http");
      } else if "https:" <= ref {
        BeforeFirstOfPrefix(ref, ':', "https");
      } else if ref == "http" {
        BeforeFirstWhole(ref, ':');
      } else if ref == "https" {
        BeforeFirstWhole(ref, ':');
      }
    }
  }

  lemma RelativeRejectedExample()
    ensures RemoteRejection("./models.json") == Some(Error("Relative remote references are not yet supported"))
  {
  }

  lemma SchemeRejectedExample()
    ensures RemoteRejection("ftp://host/doc.json") == Some(Error("Unsupported remote reference scheme: ftp"))
  {
    FtpScheme("ftp://host/doc.json");
    SchemeRejected("ftp://host/doc.json", "ftp");
    FtpMessage();
  }

  lemma FtpMessage()
    ensures "Unsupported remote reference scheme: " + "ftp" == "Unsupported remote reference scheme: ftp"
  {
  }

  lemma SchemeRejected(ref: string, scheme: string)
    requires |ref| > 0 && ref[0] != '.' && Scheme(ref) == scheme && scheme != "http" && scheme != "https"
    ensures RemoteRejection(ref) == Some(Error("Unsupported remote reference scheme: " + scheme))
  {
  }

  lemma FtpScheme(ref: string)
    requires ref == "ftp://host/doc.json"
    ensures Scheme(ref) == "ftp" && "ftp" != "http" && "ftp" != "https"
    ensures |ref| > 0 && ref[0] == 'f'
  {
    assert ref[..3] == "ftp" && ref[3] == ':';
    BeforeFirstOfPrefix(ref, ':', "ftp");
  }

  /** A remote reference waiting for its request: the pointer of its `$ref`
      member and the reference. */
  datatype Pending = Pending(ptr: string, ref: string)

  /** The first rejection among the pending remote references, in order: the
      loop over them stops there. */
  function FirstRejection(remotes: seq<Pending>): (r: Option<Error>)
    ensures r.Some? ==> exists i :: 0 <= i < |remotes| && r == RemoteRejection(remotes[i].ref)
  {
    if |remotes| == 0 then None
    else if RemoteRejection(remotes[0].ref).Some? then RemoteRejection(remotes[0].ref)
    else
      var r := FirstRejection(remotes[1..]);
      assert forall i :: 0 <= i < |remotes| - 1 ==> remotes[1..][i] == remotes[i + 1];
      r
  }

  /** No rejection exactly when every pending reference is accepted. */
  lemma {:induction false} FirstRejectionNone(remotes: seq<Pending>)
    ensures FirstRejection(remotes).None? <==> forall i :: 0 <= i < |remotes| ==> RemoteRejection(remotes[i].ref).None?
  {
    if |remotes| > 0 {
      var rest := remotes[1..];
      FirstRejectionNone(rest);
      assert forall i :: 0 < i < |remotes| ==> remotes[i] == rest[i - 1];
    }
  }

  /** A rejection is the rejection of the first rejected reference. */
  lemma {:induction false} FirstRejectionIsFirst(remotes: seq<Pending>)
    ensures FirstRejection(remotes).Some? ==>
              exists k :: 0 <= k < |remotes| && FirstRejection(remotes) == RemoteRejection(remotes[k].ref) &&
                          forall i :: 0 <= i < k ==> RemoteRejection(remotes[i].ref).None?
  {
    if |remotes| == 0 {
    } else if RemoteRejection(remotes[0].ref).Some? {
      assert FirstRejection(remotes) == RemoteRejection(remotes[0].ref);
    } else if FirstRejection(remotes[1..]).Some? {
      var rest := remotes[1..];
      FirstRejectionIsFirst(rest);
      var k :| 0 <= k < |rest| && FirstRejection(rest) == RemoteRejection(rest[k].ref) &&
               forall i :: 0 <= i < k ==> RemoteRejection(rest[i].ref).None?;
      assert remotes[k + 1] == rest[k];
      assert FirstRejection(remotes) == RemoteRejection(remotes[k + 1].ref);
      forall i | 0 < i < k + 1
        ensures RemoteRejection(remotes[i].ref).None?
      {
        assert remotes[i] == rest[i - 1];
      }
    }
  }



  // ---------------------------------------------------------------------------
  // The pass over the references

  /** The clone, the metadata map and the pending remote references. */
  datatype PassState = PassState(doc: Value, metadata: map<string, RefMeta>, remotes: seq<Pending>)

  /** What `findRefs` guarantees of its entries: local pointers to strings. */
  predicate RefEntries(refs: seq<Field>) {
    forall i :: 0 <= i < |refs| ==> refs[i].value.Str? && !IsRemote(refs[i].key)
  }

  /** One entry of the loop: a remote reference is set aside, a local one is
      spliced from the clone into the clone. */
  function Step(st: PassState, f: Field): (r: Result<PassState>)
    requires f.value.Str? && !IsRemote(f.key)
    ensures IsRemote(f.value.s) ==> r.Ok?
    ensures r.Ok? ==> r.value.metadata.Keys == st.metadata.Keys + (if IsRemote(f.value.s) then {} else {f.key})
    ensures r.Ok? ==> r.value.remotes == st.remotes + PendingOf(f)
    ensures r.Ok? && !IsRemote(f.value.s) ==> r.value.metadata[f.key] == SpliceMeta(st.doc, f.value.s, f.key)
  {
    var ref := f.value.s;
    if IsRemote(ref) then Ok(st.(remotes := st.remotes + [Pending(f.key, ref)]))
    else
      match SpliceDoc(st.doc, st.doc, ref, f.key)
      case Err(e) => Err(e)
      case Ok(d) => Ok(PassState(d, st.metadata[f.key := SpliceMeta(st.doc, ref, f.key)], st.remotes))
  }

  function Pass(st: PassState, refs: seq<Field>): (r: Result<PassState>)
    requires RefEntries(refs)
    ensures r.Ok? ==> st.metadata.Keys <= r.value.metadata.Keys
    ensures r.Ok? ==> st.remotes <= r.value.remotes
    decreases |refs|
  {
    if |refs| == 0 then Ok(st)
    else
      match Step(st, refs[0])
      case Err(e) => Err(e)
      case Ok(st') => Pass(st', refs[1..])
  }

  /** The pending request an entry sets aside: one when its reference is remote. */
  function PendingOf(f: Field): seq<Pending>
    requires f.value.Str?
  {
    if IsRemote(f.value.s) then [Pending(f.key, f.value.s)] else []
  }

  /** The remote entries, in order. */
  function RemoteRefs(refs: seq<Field>): seq<Pending>
    requires RefEntries(refs)
  {
    if |refs| == 0 then []
    else PendingOf(refs[0]) + RemoteRefs(refs[1..])
  }

  /** The pointers of the local entries. */
  function LocalPointers(refs: seq<Field>): set<string>
    requires RefEntries(refs)
  {
    set i | 0 <= i < |refs| && !IsRemote(refs[i].value.s) :: refs[i].key
  }

  /** A completed pass has a metadata entry for every local reference and sets
      aside every remote one, in order. */
  lemma PassShape(st: PassState, refs: seq<Field>)
    requires RefEntries(refs)
    requires Pass(st, refs).Ok?
    ensures Pass(st, refs).value.metadata.Keys == st.metadata.Keys + LocalPointers(refs)
    ensures Pass(st, refs).value.remotes == st.remotes + RemoteRefs(refs)
  {
    PassKeys(st, refs);
    PassRemotes(st, refs);
  }

  /** A completed pass is a completed step followed by a completed pass. */
  lemma PassCons(st: PassState, refs: seq<Field>) returns (st': PassState)
    requires RefEntries(refs) && |refs| > 0 && Pass(st, refs).Ok?
    ensures RefEntries(refs[1..])
    ensures Step(st, refs[0]) == Ok(st') && Pass(st', refs[1..]) == Pass(st, refs)
  {
    st' := Step(st, refs[0]).value;
    assert forall i :: 0 <= i < |refs| - 1 ==> refs[1..][i] == refs[i + 1];
  }

  lemma {:induction false} PassKeys(st: PassState, refs: seq<Field>)
    requires RefEntries(refs)
    requires Pass(st, refs).Ok?
    ensures Pass(st, refs).value.metadata.Keys == st.metadata.Keys + LocalPointers(refs)
    decreases |refs|
  {
    if |refs| > 0 {
      var st' := PassCons(st, refs);
      PassKeys(st', refs[1..]);
      LocalPointersCons(refs);
    }
  }

  lemma {:induction false} PassRemotes(st: PassState, refs: seq<Field>)
    requires RefEntries(refs)
    requires Pass(st, refs).Ok?
    ensures Pass(st, refs).value.remotes == st.remotes + RemoteRefs(refs)
    decreases |refs|
  {
    if |refs| > 0 {
      var st' := PassCons(st, refs);
      PassRemotes(st', refs[1..]);
      assert RemoteRefs(refs) == PendingOf(refs[0]) + RemoteRefs(refs[1..]);
      ConcatAssoc(st.remotes, PendingOf(refs[0]), RemoteRefs(refs[1..]));
    }
  }

  lemma ConcatAssoc<T>(a: seq<T>, b: seq<T>, c: seq<T>)
    ensures a + b + c == a + (b + c)
  {
  }

  lemma LocalPointersCons(refs: seq<Field>)
    requires RefEntries(refs) && |refs| > 0
    ensures LocalPointers(refs) == (if IsRemote(refs[0].value.s) then {} else {refs[0].key}) + LocalPointers(refs[1..])
  {
    forall k | k in LocalPointers(refs)
      ensures k in (if IsRemote(refs[0].value.s) then {} else {refs[0].key}) + LocalPointers(refs[1..])
    {
      var i :| 0 <= i < |refs| && !IsRemote(refs[i].value.s) && refs[i].key == k;
      if i > 0 { assert refs[i] == refs[1..][i - 1]; }
    }
    forall k | k in LocalPointers(refs[1..]) ensures k in LocalPointers(refs) {
      var i :| 0 <= i < |refs[1..]| && !IsRemote(refs[1..][i].value.s) && refs[1..][i].key == k;
      assert refs[1..][i] == refs[i + 1];
    }
  }

  /** The local entries of a document whose references are all held by
      members of its top-level object are all spliced. */
  lemma {:induction false} PassOfTopLevel(st: PassState, refs: seq<Field>)
    requires RefEntries(refs)
    requires st.doc.Obj?
    requires forall i :: 0 <= i < |refs| ==> exists key :: refs[i].key == EncodePath([key, "$ref"])
    ensures Pass(st, refs).Ok? && Pass(st, refs).value.doc.Obj?
    decreases |refs|
  {
    if |refs| > 0 {
      var key :| refs[0].key == EncodePath([key, "$ref"]);
      StepIntoObject(st, refs[0], key);
      var st' := Step(st, refs[0]).value;
      assert forall i :: 0 <= i < |refs[1..]| ==> refs[1..][i] == refs[i + 1];
      PassOfTopLevel(st', refs[1..]);
    }
  }

  /** A step for a reference held by a top-level member keeps the clone an object. */
  lemma StepIntoObject(st: PassState, f: Field, key: string)
    requires f.value.Str? && !IsRemote(f.key)
    requires st.doc.Obj? && f.key == EncodePath([key, "$ref"])
    ensures Step(st, f).Ok? && Step(st, f).value.doc.Obj?
  {
    SpliceIntoObject(st.doc, st.doc, key, f.value.s);
    if !IsRemote(f.value.s) {
      ParentPathOfRefPointer([key]);
      assert [key] + ["$ref"] == [key, "$ref"];
      WriteMemberOfObject(st.doc, key, TargetValue(st.doc, f.value.s));
    }
  }

  lemma WriteMemberOfObject(v: Value, key: string, x: Value)
    requires v.Obj?
    ensures WriteMember(v, key, x).Ok? && WriteMember(v, key, x).value.Obj?
  {
  }

  // ---------------------------------------------------------------------------
  // The resolver's state, updated in place

  /** The deep clone being resolved, the metadata map and the pending remote
      references, as `resolveRefs` keeps them in its closure. */
  class Resolver {
    var doc: Value
    var metadata: map<string, RefMeta>
    var remotes: seq<Pending>

    /** Starts from a deep clone of `json`; values have no identity, so the
        clone is the same value. */
    constructor (json: Value)
      ensures doc == json && metadata == map[] && remotes == []
    {
      doc := json;
      metadata := map[];
      remotes := [];
    }

    function State(): PassState
      reads this
    {
      PassState(doc, metadata, remotes)
    }

    /** The helper `u`: splices one reference and records its metadata. A
        failing write leaves everything as it was. */
    method Splice(source: Value, ref: string, ptr: string) returns (failure: Option<Error>)
      requires !IsRemote(ptr)
      modifies this
      ensures SpliceDoc(old(doc), source, ref, ptr).Err? ==>
                failure == Some(SpliceDoc(old(doc), source, ref, ptr).error) && doc == old(doc) && metadata == old(metadata)
      ensures SpliceDoc(old(doc), source, ref, ptr).Ok? ==>
                failure.None? && doc == SpliceDoc(old(doc), source, ref, ptr).value &&
                metadata == old(metadata)[ptr := SpliceMeta(source, ref, ptr)]
      ensures remotes == old(remotes)
    {
      var result := SpliceDoc(doc, source, ref, ptr);
      if result.Err? {
        return Some(result.error);
      }
      doc := result.value;
      metadata := metadata[ptr := SpliceMeta(source, ref, ptr)];
      return None;
    }

    /** The loop over the references `findRefs` found: remote ones are set
        aside, local ones spliced from the clone as it stands. */
    method SpliceAll(refs: seq<Field>) returns (failure: Option<Error>)
      requires RefEntries(refs)
      modifies this
      ensures Pass(old(State()), refs).Err? <==> failure.Some?
      ensures Pass(old(State()), refs).Err? ==> failure == Some(Pass(old(State()), refs).error)
      ensures Pass(old(State()), refs).Ok? ==> State() == Pass(old(State()), refs).value
    {
      ghost var start := State();
      for k := 0 to |refs|
        invariant Pass(start, refs) == Pass(State(), refs[k..])
      {
        assert refs[k..][1..] == refs[k + 1..];
        var f := refs[k];
        if IsRemote(f.value.s) {
          remotes := remotes + [Pending(f.key, f.value.s)];
        } else {
          failure := Splice(doc, f.value.s, f.key);
          if failure.Some? {
            return;
          }
        }
      }
      return None;
    }
  }

  // ---------------------------------------------------------------------------
  // The whole synchronous run

  /** What a call comes to before any remote document is requested: a thrown
      error, an error passed to `done`, a result passed to `done`, or remote
      references still to be fetched. */
  datatype Outcome =
    | Thrown(error: Error)
    | Failed(error: Error)
    | Resolved(doc: Value, metadata: map<string, RefMeta>)
    | Fetching(doc: Value, metadata: map<string, RefMeta>, remotes: seq<Pending>)

  /** The outcome after the pass, from the pass's final state. */
  function AfterPass(st: PassState): Outcome {
    if |st.remotes| == 0 then Resolved(st.doc, st.metadata)
    else match FirstRejection(st.remotes)
      case Some(e) => Failed(e)
      case None => Fetching(st.doc, st.metadata, st.remotes)
  }

  /** The entries of `findRefs` are local pointers to strings. */
  lemma RefsOfAreEntries(doc: Value)
    requires WellFormed(doc)
    ensures RefEntries(RefsOf(doc))
  {
    var refs := RefsOf(doc);
    forall i | 0 <= i < |refs| ensures refs[i].value.Str? && !IsRemote(refs[i].key) {
      LookupAt(refs, i);
      FindRefsSound(doc, refs[i].key, refs[i].value);
      var p :| ReferenceAt(doc, p) && refs[i].key == EncodePath(p + ["$ref"]) &&
               Lookup(Get(doc, p).value.fields, "$ref") == Some(refs[i].value);
      EncodePathIsLocal(p + ["$ref"]);
    }
  }

  /** `resolveRefs(args...)` up to the first remote request. Documents are
      well formed: JavaScript objects never repeat a key. */
  method ResolveRefs(args: seq<Value>) returns (r: Outcome)
    requires WellFormed(ReadArguments(args).json)
    ensures ArgumentError(ReadArguments(args)).Some? ==> r == Thrown(ArgumentError(ReadArguments(args)).value)
    ensures ArgumentError(ReadArguments(args)).None? && RefsOf(ReadArguments(args).json) == [] ==>
              r == Resolved(ReadArguments(args).json, map[])
    ensures ArgumentError(ReadArguments(args)).None? && RefsOf(ReadArguments(args).json) != [] ==>
              RefEntries(RefsOf(ReadArguments(args).json)) &&
              var pass := Pass(PassState(ReadArguments(args).json, map[], []), RefsOf(ReadArguments(args).json));
              (pass.Err? ==> r == Thrown(pass.error)) &&
              (pass.Ok? ==> r == AfterPass(pass.value))
  {
    var a := ReadArguments(args);
    var err := ArgumentError(a);
    if err.Some? {
      return Thrown(err.value);
    }
    var found := FindRefs(a.json);
    var refs := found.value;
    if |refs| == 0 {
      return Resolved(a.json, map[]);
    }
    RefsOfAreEntries(a.json);
    var resolver := new Resolver(a.json);
    var failure := resolver.SpliceAll(refs);
    if failure.Some? {
      return Thrown(failure.value);
    }
    PassShape(PassState(a.json, map[], []), refs);
    if |resolver.remotes| == 0 {
      return Resolved(resolver.doc, resolver.metadata);
    }
    var rejection := FirstRejection(resolver.remotes);
    if rejection.Some? {
      return Failed(rejection.value);
    }
    return Fetching(resolver.doc, resolver.metadata, resolver.remotes);
  }

  /** A call on a document without references hands back the document itself,
      with empty metadata. */
  lemma NoRefsResolvesToInput(json: Value, done: Value)
    requires WellFormed(json) && IsPlainObject(json) && done.Fn?
    requires forall p :: !ReferenceAt(json, p)
    ensures ArgumentError(ReadArguments([json, done])) == None
    ensures RefsOf(ReadArguments([json, done]).json) == []
  {
    FindRefsEmpty(json);
  }

  /** After a completed pass, every local reference has metadata and every
      remote one is pending, in the order `findRefs` found them. */
  lemma ResolvedMetadataKeys(json: Value)
    requires WellFormed(json)
    ensures RefEntries(RefsOf(json))
    ensures Pass(PassState(json, map[], []), RefsOf(json)).Ok? ==>
              Pass(PassState(json, map[], []), RefsOf(json)).value.metadata.Keys == LocalPointers(RefsOf(json)) &&
              Pass(PassState(json, map[], []), RefsOf(json)).value.remotes == RemoteRefs(RefsOf(json))
  {
    RefsOfAreEntries(json);
    if Pass(PassState(json, map[], []), RefsOf(json)).Ok? {
      PassShape(PassState(json, map[], []), RefsOf(json));
    }
  }

  // ---------------------------------------------------------------------------
  // The cache of `getRemoteJson`

  /** What the abstracted request returns for a URL: the parsed (or processed)
      document, or the error of the request, the response or the parser. */
  datatype Fetched = Loaded(doc: Value) | LoadFailed(error: Error)

  /** The cache key: the URL without its fragment. */
  function CacheKey(url: string): (k: string)
    ensures '#' !in k && k <= url
  {
    BeforeFirst(url, '#')
  }

  /** URLs that differ only in their fragments share their cache entry. */
  lemma CacheKeyIgnoresFragment(base: string, fragment: string)
    requires '#' !in base
    ensures CacheKey(base + "#" + fragment) == base
    ensures CacheKey(base) == base
  {
    BeforeFirstOfPrefix(base + "#" + fragment, '#', base);
    BeforeFirstWhole(base, '#');
  }

  /** A cached value counts only when defined: a failed request stores undefined. */
  predicate Hit(entries: map<string, Value>, url: string) {
    CacheKey(url) in entries && !entries[CacheKey(url)].Undefined?
  }

  /** The module-level `remoteCache` of the browser build. */
  class RemoteJsonCache {
    var entries: map<string, Value>

    constructor ()
      ensures entries == map[]
    {
      entries := map[];
    }

    /** `clearCache()`. */
    method ClearCache()
      modifies this
      ensures entries == map[]
    {
      entries := map[];
    }

    /** `getRemoteJson(url, options, callback)`: a hit answers from the cache
        without a request; a miss requests the URL and stores what came back,
        undefined on failure. */
    method GetRemoteJson(url: string, load: string -> Fetched) returns (r: Result<Value>, requested: bool)
      modifies this
      ensures requested <==> !Hit(old(entries), url)
      ensures !requested ==> r == Ok(old(entries)[CacheKey(url)]) && entries == old(entries)
      ensures requested && load(url).Loaded? ==> r == Ok(load(url).doc) && entries == old(entries)[CacheKey(url) := load(url).doc]
      ensures requested && load(url).LoadFailed? ==> r == Err(load(url).error) && entries == old(entries)[CacheKey(url) := Undefined]
    {
      var key := CacheKey(url);
      if key in entries && !entries[key].Undefined? {
        return Ok(entries[key]), false;
      }
      requested := true;
      match load(url)
      case Loaded(d) =>
        entries := entries[key := d];
        r := Ok(d);
      case LoadFailed(e) =>
        entries := entries[key := Undefined];
        r := Err(e);
    }
  }

  /** A second request for the same document, under any fragment, is answered
      from the cache after a first that loaded a defined value; after a failure
      it is requested again. */
  method FetchTwice(cache: RemoteJsonCache, url: string, url2: string, load: string -> Fetched)
    returns (first: Result<Value>, second: Result<Value>, requested2: bool)
    requires CacheKey(url) == CacheKey(url2)
    modifies cache
    ensures load(url).Loaded? && !load(url).doc.Undefined? ==> !requested2 && second == first
    ensures !Hit(old(cache.entries), url) && load(url).LoadFailed? ==> requested2
  {
    var requested1;
    first, requested1 := cache.GetRemoteJson(url, load);
    second, requested2 := cache.GetRemoteJson(url2, load);
    if requested1 && load(url).Loaded? && !load(url).doc.Undefined? {
      assert Hit(cache.entries, url2) ==> !requested2;
    }
  }
}
